=== FILE: README.md ===
# Candlepin performance-test verdicts, modelled in Dafny

This project models the part of the Candlepin performance-test tooling that
turns test results into a pass/fail verdict.

- **Aggregation.** `parse_csv` in `parse-jtl.py` reads a JMeter result table
  (JTL, one row per sampled API call). It groups the rows by label and derives
  `count`, `elapsed`, `success`, `success_%`, `average` and `num_calls`.
- **Comparison.** `compare_success_rates`, `compare_elapsed_times` and
  `compare_csv` check every API call against a baseline table and a tolerance
  table, and count the failed checks.
- **Estimation.** `Estimator` in `param_estimator.py` reads many earlier
  results and derives either a new baseline (mean elapsed time plus 5,
  success percentage minus 5) or new tolerances (required success and allowed
  relative deviance).
- **Older estimation.** `DevianceEstimator` in `estimate_allowed_deviance.py`
  derives tolerances from the maximum absolute deviation of success rates.
- **Version filters.** The Ansible filters in
  `ansible/plugins/filter/performance.py` build `major.minor` file and
  snapshot names from a branch version string.

The scripts are Python 2, so `/` on two integers is floor division. This is
`Builtins.FloorDiv`, which also covers negative divisors. The estimators'
floating-point arithmetic is modelled with exact `real`s.

## Layout

| file | module | models |
|---|---|---|
| wrappers.dfy | Wrappers | `Option`, `Result`, and a first-failure traversal of a sequence |
| folds.dfy | Folds | integer sums over a sequence; real sum, mean, maximum and minimum, with permutation lemmas |
| builtins.dfy | Builtins | Python 2 floor division and `int()` on a string (surrounding whitespace, optional sign, decimal digits) |
| jtl_parser.dfy | JtlParser | `parse_csv`: row decoding, per-label tallies, derived statistics |
| thresholds.dfy | Thresholds | the JSON number type (int or float), the tolerance and baseline records, the shared margin and the estimators' `ZeroDivisionError` |
| comparator.dfy | Comparator | `compare_success_rates`, `compare_elapsed_times`, `compare_csv` |
| corpus.dfy | Corpus | `_add_perf_test_result` (files that fail to parse are skipped) and `_gather_required_data` |
| param_estimator.dfy | ParamEstimator | `_compute_avg_*`, `_estimate_baseline`, `_estimate_deviances`, the `_estimate` dispatch |
| deviance_estimator.dfy | DevianceEstimator | `DevianceEstimator._estimate_deviances` |
| version_filters.dfy | VersionFilters | `str.split('.')`, `major_minor_num`, `snap_name`, `baseline_file`, `expected_file`, `FilterModule.filters` |

Error paths are data:

- A short CSV row is `RowError.MissingColumn`, which is Python's `IndexError`.
  A non-integer elapsed column is `RowError.NotAnInteger`, which is Python's `ValueError`.
- A call missing from the tolerance or baseline table is `MissingKey`, which is
  Python's `KeyError`.
- A run with a zero `count` is `EstimateError.ZeroDivision`. So is a zero
  average elapsed time in deviance mode. Python raises `ZeroDivisionError` for both.
- A version string without a `.` gives `None`, which is the `IndexError` of
  `version[1]`.

## Model

| member | source | states |
|---|---|---|
| Builtins.FloorDiv | parse-jtl.py:257-258 | Python 2 `/` on ints (also at parse-jtl.py:138): the quotient is the largest q with q·b not past a, for either sign of the divisor |
| Builtins.FloorDivMonotone | parse-jtl.py:257-258 | Python 2 integer division by a positive count is monotone in the dividend |
| Builtins.FloorDivBounds | parse-jtl.py:257-258 | a dividend between lo·b and hi·b gives a floor quotient between lo and hi |
| Builtins.StripLeft | parse-jtl.py:251 | `int()` drops leading whitespace: the result is a suffix, all dropped characters are blanks, and it starts with a non-blank |
| Builtins.StripRight | parse-jtl.py:251 | `int()` drops trailing whitespace: the result is a prefix, all dropped characters are blanks, and it ends with a non-blank |
| Builtins.ParseInt | parse-jtl.py:251 | `int()` accepts only an optionally signed, non-empty run of digits once surrounding blanks are stripped, and a negative result comes from a leading `-`; `Builtins.ParseIntRoundTrip` and `Builtins.ParseIntRejectsStrayCharacter` pin down which texts it accepts |
| Builtins.ParseIntRoundTrip | parse-jtl.py:251 | `int()` of any rendered integer surrounded by blanks gives back that integer |
| Builtins.ParseRendering | parse-jtl.py:251 | the decimal rendering of every integer has no surrounding blanks and parses back to the integer |
| Builtins.StripPadded | parse-jtl.py:251 | stripping blanks around a text that starts and ends with a non-blank gives the text back |
| Builtins.SameStripSameInt | parse-jtl.py:251 | two strings that differ only in surrounding whitespace parse to the same value |
| Builtins.ParseIntRejectsStrayCharacter | parse-jtl.py:251 | a string containing a character that is not a digit, a sign or a blank is rejected (`ValueError`) |
| JtlParser.DecodeRow | parse-jtl.py:248-254 | a row decodes iff it has a column 7 and column 1 is an integer; label from column 2, flag from column 7; errors arise in the order the code reaches them: a row without column 2 is an `IndexError`, then a non-integer elapsed value is a `ValueError`, then a row without column 7 is an `IndexError` |
| JtlParser.DecodeRows | parse-jtl.py:246-254 | every row is decoded in order; the error reported is the first failing row's, and all rows before it decode |
| JtlParser.TallyStep | parse-jtl.py:248-254 | a row changes only its own label's tally: count +1, elapsed + its value, success +1 iff the flag is exactly "true", its text appended to data |
| JtlParser.LabelsSnoc | parse-jtl.py:248-249 | a row adds exactly its label to the labels seen |
| JtlParser.TallyOfAbsent | parse-jtl.py:248-249 | a label that labels no row has an empty tally |
| JtlParser.Aggregate | parse-jtl.py:243-254 | the accumulated map's keys are exactly the labels seen, and each entry is that label's tally over all rows |
| JtlParser.CountPositiveIffSeen | parse-jtl.py:248-250 | a label is in the results iff its count is positive, so the divisions at 257-258 never divide by zero |
| JtlParser.Summarize | parse-jtl.py:256-259 | `success_%` and `average` are the floor quotients of success·100 and elapsed by count; `num_calls` is the length of data; the tallies are kept |
| JtlParser.ParseCsv | parse-jtl.py:237-261 | the header row is skipped; parsing fails iff some body row fails, with that row's error; otherwise keys are the labels seen and each entry is that label's statistics |
| JtlParser.Report | parse-jtl.py:247-259 | the reported map has one entry per label, equal to its statistics |
| JtlParser.DataMatchesCount | parse-jtl.py:250-254 | one datum is appended per counted row |
| JtlParser.StatBounds | parse-jtl.py:250-259 | 0 ≤ success ≤ count, 0 ≤ `success_%` ≤ 100, `num_calls` = count, and elapsed and average are non-negative when every sample is |
| JtlParser.PercentWithinRange | parse-jtl.py:257 | the success percentage lies in [0, 100] |
| JtlParser.AverageNonNegative | parse-jtl.py:258 | the floor average of non-negative elapsed times is non-negative |
| JtlParser.DataMultiplicity | parse-jtl.py:254 | each elapsed text occurs in a label's data as often as rows with that label carry it |
| JtlParser.LabelsPermutation | parse-jtl.py:247-249 | reordering rows does not change the labels seen |
| JtlParser.TallyPermutation | parse-jtl.py:247-254 | reordering rows changes neither count, elapsed nor success, and data only up to order |
| JtlParser.ParseOrderIndependent | parse-jtl.py:247-259 | reordering rows gives the same keys and the same numeric statistics; data is the same multiset |
| Comparator.CompareSuccessRates | parse-jtl.py:119-128 | the success check fails iff current < required, and the failure carries both values |
| Comparator.SuccessCheckInclusive | parse-jtl.py:125 | equality passes, and a higher success rate never fails where a lower one passes |
| Comparator.EffectiveBaseline | parse-jtl.py:136-137 | a zero baseline (int or float) becomes the int 1, and a non-zero baseline is kept |
| Comparator.Deviance | parse-jtl.py:136-138 | the deviance is a whole number against an int baseline, (current − 1)·100 against a zero baseline, and non-negative exactly when the call is no faster than a positive baseline; `Comparator.DevianceMeaning` relates it to the exact relative deviance |
| Comparator.DeviationSign | parse-jtl.py:138 | against a positive baseline both the floored and the exact deviance are negative exactly when the call is faster |
| Comparator.DevianceMeaning | parse-jtl.py:136-138 | the deviance is the exact relative difference ×100 for a float baseline, its floor for an int baseline (Python 2), and the difference against 1 for a zero baseline |
| Comparator.FloorDivIsFloor | parse-jtl.py:138 | Python 2 integer division lies within 1 below the exact quotient |
| Comparator.CompareElapsedTimes | parse-jtl.py:131-144 | the timing check fails iff deviance > allowed; a failure carries the current time, the baseline as used (zero remapped to 1), the computed deviance and the allowance, as the message at 140-143 prints them |
| Comparator.ExactMatchPasses | parse-jtl.py:136-144 | when current equals baseline the deviance is 0 (or −100 for a zero baseline), so the check passes for any allowance ≥ 0 |
| Comparator.TimingMonotone | parse-jtl.py:138-139 | against a positive baseline a slower call has a deviance at least as large (floor division can make them equal), and fails wherever a faster one fails |
| Comparator.CompareCall | parse-jtl.py:150-180 | one call's report: the success check fails iff `success_%` < required, the timing check fails iff deviance > allowed; it adds 0, 1 or 2 failures, and 0 iff the call is OK |
| Comparator.FindMissing | parse-jtl.py:150-168 | finds the first call in visiting order that is missing from the tolerance table (checked first, line 155) or else from the baseline table (line 166); none iff every call can be compared |
| Comparator.CheckAll | parse-jtl.py:150-181 | visits the calls in order, reports each one, and the failure count is the sum of the per-call failures, 0 iff every call is OK |
| Comparator.CheckCalls | parse-jtl.py:150-181 | for comparable calls, one report per call in order, with the total failure count |
| Comparator.CompareCsv | parse-jtl.py:147-181 | fails iff some current call is missing from a table, naming the first such call; otherwise visits every call once, and the failure total is the number of failed checks, 0 iff every call is OK |
| Comparator.EnumerationCoversKeys | parse-jtl.py:150 | iterating `items()` visits exactly the current results' keys |
| Comparator.FailureTallyOrderIndependent | parse-jtl.py:150-181 | the failure total does not depend on the dictionary's iteration order |
| Corpus.LoadRuns | param_estimator.py:50-63 | a file that fails to decode contributes nothing, and every decoded file is kept as one run: each run occurs exactly as often as files decode to it (the same code is at estimate_allowed_deviance.py:43-56) |
| Corpus.LoadRunsAppend | param_estimator.py:74-76 | loading a listing in two parts loads each part in turn, so the model's runs follow the listing order |
| Corpus.Value | param_estimator.py:97-103 | the success rate is recomputed as success/count (rate × count = success), lies in [0, 1] when 0 ≤ success ≤ count, and the average time is read as it is |
| Corpus.AppendEach | param_estimator.py:105-108 | `setdefault(call, []).append(x)` for each call: the known calls grow by the new ones, each touched list gains exactly the new value at its end, and every other list is unchanged |
| Corpus.AddRun | param_estimator.py:93-108 | one run appends, for each of its calls, its success/count to the call's success-rate list and its average to the call's elapsed-time list, and leaves the lists of other calls alone |
| Corpus.Calls | param_estimator.py:93-94 | a call is known iff some loaded run contains it |
| Corpus.Column | param_estimator.py:93-108 | a call's column has one entry per run containing it, and holds exactly that call's success/count (or average) values from those runs |
| Corpus.ColumnNonEmpty | param_estimator.py:105-108 | a call has a non-empty column iff it is known |
| Corpus.ColumnMultiplicity | param_estimator.py:93-108 | each value occurs in a column as often as runs contribute it |
| Corpus.ColumnPermutation | param_estimator.py:93-108 | reordering the runs only reorders each column |
| Corpus.GatherRequiredData | param_estimator.py:89-108 | the success-rate table and the elapsed-time table have the same calls |
| Corpus.GatherMeaning | param_estimator.py:89-108 | after gathering, a call has lists iff some run contains it, and its lists are exactly its success-rate and average-time columns |
| Corpus.GatheredShape | param_estimator.py:105-108 | both lists of a known call have one entry per run containing it, so they are non-empty and equally long |
| Corpus.RatesWithinUnit | param_estimator.py:103 | every gathered success rate is in [0, 1] when success ≤ count in each run |
| Corpus.SameRuns | param_estimator.py:93 | reordering the runs keeps the known calls and the zero-count verdict |
| ParamEstimator.ComputeAverage | param_estimator.py:110-118 | the mean of a call's list lies between the list's minimum and maximum |
| ParamEstimator.RelativeDeviations | param_estimator.py:156 | one relative deviation per elapsed time, none negative when the times are positive |
| ParamEstimator.MaxDeviation | param_estimator.py:156 | `max_dev` is attained by some run, and no run deviates more |
| ParamEstimator.GatheredWell | param_estimator.py:93-108 | both tables name the same calls, and every call's two lists are non-empty and of equal length |
| ParamEstimator.GatheredKeys | param_estimator.py:127 | the estimator iterates over exactly the known calls |
| ParamEstimator.GatheredTimesNonZero | param_estimator.py:156 | a call's elapsed list has no zero iff no run records a zero average for it |
| ParamEstimator.EstimateBaseline | param_estimator.py:120-138 | baseline estimations exist for exactly the known calls |
| ParamEstimator.EstimateDeviances | param_estimator.py:140-162 | tolerance estimations exist for exactly the known calls |
| ParamEstimator.Estimate | param_estimator.py:78-87 | the mode selects exactly one reduction; estimation fails iff some run has a zero count, or in deviance mode some average is zero |
| ParamEstimator.BaselineMeaning | param_estimator.py:127-138 | a call's baseline is its mean average time + 5 and 100·(mean success rate) − 5, computed from its columns |
| ParamEstimator.MeanRateWithinUnit | param_estimator.py:115-118 | the mean success rate lies in [0, 1] when success ≤ count |
| ParamEstimator.BaselineBounds | param_estimator.py:127-138 | the baseline success percentage lies in [−5, 95], and the baseline average lies between min + 5 and max + 5 of the call's averages |
| ParamEstimator.ToleranceMeaning | param_estimator.py:147-162 | a call's tolerance is 100·(mean rate) − 5 and 100·`max_dev` + 5, computed from its columns |
| ParamEstimator.MaxDeviationNonNegative | param_estimator.py:156 | `max_dev` ≥ 0 when every elapsed time is positive |
| ParamEstimator.ToleranceBounds | param_estimator.py:154-161 | with positive elapsed times and success ≤ count, allowed deviance ≥ 5 and required success lies in [−5, 95] |
| ParamEstimator.SteadyMaxDeviation | param_estimator.py:156 | equal elapsed times give `max_dev` = 0 |
| ParamEstimator.SteadyTimesNeedOnlyMargin | param_estimator.py:154-161 | a call whose every run has the same average time gets allowed deviance exactly 5 |
| ParamEstimator.MaxDeviationPermutation | param_estimator.py:156 | `max_dev` does not depend on list order |
| ParamEstimator.SameAverages | param_estimator.py:156 | reordering the runs keeps the zero-average verdict |
| ParamEstimator.BaselineOfPermutation | param_estimator.py:127-138 | a baseline entry depends only on its lists' contents, not their order |
| ParamEstimator.ToleranceOfPermutation | param_estimator.py:147-162 | a tolerance entry depends only on its lists' contents, not their order |
| ParamEstimator.BaselineEntryOrderIndependent | param_estimator.py:127-138 | one call's baseline does not depend on the order in which the runs are read |
| ParamEstimator.ToleranceEntryOrderIndependent | param_estimator.py:147-162 | one call's tolerance does not depend on the order in which the runs are read |
| ParamEstimator.BaselinesOrderIndependent | param_estimator.py:120-138 | the whole baseline table does not depend on the run order |
| ParamEstimator.TolerancesOrderIndependent | param_estimator.py:140-162 | the whole tolerance table does not depend on the run order |
| ParamEstimator.BaselineModeOrderIndependent | param_estimator.py:120-138 | baseline mode gives the same outcome, error or table, for any run order |
| ParamEstimator.DeviancesModeOrderIndependent | param_estimator.py:140-162 | deviance mode gives the same outcome, error or table, for any run order |
| ParamEstimator.EstimateOrderIndependent | param_estimator.py:78-162 | in either mode the outcome does not depend on the order of the result files |
| DevianceEstimator.AbsoluteDeviations | estimate_allowed_deviance.py:89 | one absolute deviation from the mean per success rate, never negative, and at most 1 when the mean and the rates lie in [0, 1] |
| DevianceEstimator.MaxAbsDeviation | estimate_allowed_deviance.py:89 | `max_dev` is attained by some run, no rate is farther from the mean, and it is never negative |
| DevianceEstimator.EstimateDeviances | estimate_allowed_deviance.py:71-94 | fails iff some run has a zero count; otherwise estimations exist for exactly the known calls |
| DevianceEstimator.RatesGathered | estimate_allowed_deviance.py:76-83 | each call's list holds one success/count per run containing it |
| DevianceEstimator.EstimateMeaning | estimate_allowed_deviance.py:85-94 | a call's tolerance is 100·mean − 5 and 100·`max_dev` + 5 over its success-rate column |
| DevianceEstimator.MaxAbsDeviationWithinUnit | estimate_allowed_deviance.py:89 | `max_dev` lies in [0, 1] when every rate does |
| DevianceEstimator.EstimateBounds | estimate_allowed_deviance.py:85-94 | with success ≤ count, required success lies in [−5, 95] and allowed deviance in [5, 105] |
| DevianceEstimator.SteadyRatesNeedOnlyMargin | estimate_allowed_deviance.py:87-94 | identical rates r give allowed deviance 5 and required success 100·r − 5 |
| DevianceEstimator.MaxAbsDeviationPermutation | estimate_allowed_deviance.py:89 | `max_dev` does not depend on list order |
| DevianceEstimator.ToleranceOfPermutation | estimate_allowed_deviance.py:87-94 | a tolerance depends only on the rates, not their order |
| DevianceEstimator.EntryOrderIndependent | estimate_allowed_deviance.py:76-94 | one call's tolerance does not depend on the run order |
| DevianceEstimator.TablesOrderIndependent | estimate_allowed_deviance.py:76-94 | the whole tolerance table does not depend on the run order |
| DevianceEstimator.EstimateOrderIndependent | estimate_allowed_deviance.py:71-94 | the outcome, error or table, does not depend on the run order |
| VersionFilters.Split | ansible/plugins/filter/performance.py:26 | `str.split('.')` yields at least one field, none containing the separator |
| VersionFilters.JoinSplit | ansible/plugins/filter/performance.py:26 | joining the split fields with the separator gives back the string, so empty fields are kept |
| VersionFilters.SplitAfterPlain | ansible/plugins/filter/performance.py:26 | a separator-free prefix extends the first field only |
| VersionFilters.SplitJoin | ansible/plugins/filter/performance.py:26 | splitting a join of separator-free fields gives back the fields |
| VersionFilters.MajorMinorNum | ansible/plugins/filter/performance.py:25-27 | a result exists iff the branch contains a `.`; otherwise indexing `version[1]` fails |
| VersionFilters.MajorMinorOfVersion | ansible/plugins/filter/performance.py:25-27 | for a version major.minor.rest… the result is "major.minor", a prefix of the branch; further fields are ignored |
| VersionFilters.SnapName | ansible/plugins/filter/performance.py:6-12 | "CP" gives "readyfortestsnap" for any branch; "candlepin-perf-mysql" gives "testsnap_" + major.minor, and fails iff there is no `.`; any other domain gives "" |
| VersionFilters.BaselineFile | ansible/plugins/filter/performance.py:15-17 | "baseline/" + major.minor + "-baseline.json", and fails iff there is no `.` |
| VersionFilters.ExpectedFile | ansible/plugins/filter/performance.py:20-22 | "expected/" + major.minor + "-expected.json", and fails iff there is no `.` |
| VersionFilters.SameMajorMinorSameFiles | ansible/plugins/filter/performance.py:6-22 | branches with the same major.minor get the same files and the same snapshot |
| VersionFilters.Filters | ansible/plugins/filter/performance.py:30-36 | the filter table maps each of the four names to its filter, one to one |

## Left out

- CSV splitting and file opening in `parse_csv`: rows arrive already split into fields.
- Command-line parsing, `main` and output of every script: `argparse`/`optparse`, `print`, writing the output file, `json.dumps`.
- The pretty-print output of `parse-jtl.py`: it is presentation only.
- `generate_histograms`: plotting with matplotlib and numpy.
- `generate-csv.py`: database I/O only.
- ANSI colours and `Colors.NO_COLOR`: presentation only.
- The `%4.1f` message text: verdicts are modelled as data (`SuccessTooLow`, `TimingTooSlow` with their values), not strings.
- `_read_results` / `_read_resutls` directory listing with `os.listdir`: `Corpus.LoadRuns` takes the list of files and their decoded contents.
- JSON decoding is not modelled: a file is either a decoded run or undecodable.
- Field types in the JSON records: a record is assumed to carry integer `count` and `success` and a numeric `average`.
- A record missing one of those fields (`KeyError`) is not modelled.
- The result dictionary keyed by file name is a sequence of runs: file names are assumed distinct. A file read twice would overwrite its earlier entry in the source.
- `round(…, 2)` in `_estimate_baseline` and `_estimate_deviances`: the model uses exact reals and states its bounds before rounding.
- IEEE floating-point behaviour: it is modelled as exact `real` arithmetic.
- The order in which the estimators walk the loaded results (`perf_test_results.values()` at param_estimator.py:93 and estimate_allowed_deviance.py:76, a dictionary keyed by file name in Python 2 hash order) is not modelled: runs are gathered in listing order. `ParamEstimator.EstimateOrderIndependent` and `DevianceEstimator.EstimateOrderIndependent` prove the outcome is the same for every order.
- Dictionary iteration order in `compare_csv` is an explicit parameter (`order` in `Comparator.CompareCsv`). Two results are proved not to depend on it: the failure total (`Comparator.FailureTallyOrderIndependent`) and whether the comparison fails at all. The order of the per-call reports follows `order`, and so does which missing call is reported: the first one in `order`, as Python's `KeyError` at parse-jtl.py:155 and 166 is raised for the first key it reaches.
- A tolerance entry without `required_success` or `allowed_deviance`, or a baseline entry without `average` (a `KeyError` at parse-jtl.py:155 and 166-167), is not modelled: tables map a call to a complete `Tolerance` or `Number`.
- Builtins.ParseInt: models base-10 `int()` only: ASCII blanks (tab, newline, vertical tab, form feed, carriage return, space) around an optionally signed run of decimal digits. Blanks between the sign and the digits are not accepted by the model.
- `_estimate`'s `KeyError` for an unknown mode: `argparse` restricts `--type` to the two modes, so `Mode` has exactly two values.
- Estimator state across calls: `_estimate` runs once per process, so each estimation is modelled from freshly loaded runs, with empty tables before gathering.

=== FILE: builtins.dfy ===
/** The two Python 2 built-ins the parser's arithmetic rests on: `int(text)`
    for decimal text and `/` on two ints, which floors. */
module Builtins {
  import opened Wrappers

  /** Python 2 `a / b` on ints: the quotient rounded toward minus infinity,
      also for a negative divisor (Dafny's own `/` is Euclidean). It is the
      largest `q` with `q * b` not past `a`. */
  function FloorDiv(a: int, b: int): (q: int)
    requires b != 0
    ensures b > 0 ==> q * b <= a < q * b + b
    ensures b < 0 ==> q * b + b < a <= q * b
  {
    if b > 0 then a / b else (-a) / (-b)
  }

  /** Flooring by a positive divisor keeps the order of the dividends. */
  lemma FloorDivMonotone(a1: int, a2: int, b: int)
    requires b > 0
    requires a1 <= a2
    ensures FloorDiv(a1, b) <= FloorDiv(a2, b)
  {
    var q1, q2 := FloorDiv(a1, b), FloorDiv(a2, b);
    assert (q1 - q2 - 1) * b == q1 * b - q2 * b - b;
    assert (q1 - q2 - 1) * b < 0;
    PositiveFactor(q1 - q2 - 1, b);
  }

  /** Bounds on the dividend carry over to the floored quotient. */
  lemma FloorDivBounds(a: int, b: int, lo: int, hi: int)
    requires b > 0
    requires lo * b <= a <= hi * b
    ensures lo <= FloorDiv(a, b) <= hi
  {
    var q := FloorDiv(a, b);
    assert (q - hi) * b == q * b - hi * b;
    assert (q - hi) * b <= 0;
    PositiveFactor(q - hi, b);
    assert (lo - q - 1) * b == lo * b - q * b - b;
    assert (lo - q - 1) * b < 0;
    PositiveFactor(lo - q - 1, b);
  }

  lemma PositiveFactor(x: int, b: int)
    requires b > 0
    ensures x > 0 ==> x * b > 0
    ensures x < 0 ==> x * b < 0
  {
  }

  /** The characters Python's `str.strip()` and `int()` treat as blank. */
  predicate IsSpace(c: char)
  {
    c as int in {9, 10, 11, 12, 13, 32}
  }

  predicate IsDigit(c: char)
  {
    '0' <= c <= '9'
  }

  predicate AllDigits(t: string)
  {
    forall i :: 0 <= i < |t| ==> IsDigit(t[i])
  }

  /** `s` without its leading blanks. */
  function StripLeft(s: string): (t: string)
    ensures |t| <= |s| && t == s[|s| - |t|..]
    ensures |t| > 0 ==> !IsSpace(t[0])
    ensures forall i :: 0 <= i < |s| - |t| ==> IsSpace(s[i])
  {
    if |s| > 0 && IsSpace(s[0]) then StripLeft(s[1..]) else s
  }

  /** `s` without its trailing blanks. */
  function StripRight(s: string): (t: string)
    ensures |t| <= |s| && t == s[..|t|]
    ensures |t| > 0 ==> !IsSpace(t[|t| - 1])
    ensures forall i :: |t| <= i < |s| ==> IsSpace(s[i])
  {
    if |s| > 0 && IsSpace(s[|s| - 1]) then StripRight(s[..|s| - 1]) else s
  }

  function Strip(s: string): string
  {
    StripRight(StripLeft(s))
  }

  /** Value of a string of decimal digits, most significant first. */
  function DigitsValue(t: string): nat
    requires AllDigits(t)
  {
    if |t| == 0 then 0
    else DigitsValue(t[..|t| - 1]) * 10 + (t[|t| - 1] as int - '0' as int)
  }

  /** A non-empty run of digits, or nothing. */
  function ParseDigits(t: string): Option<nat>
  {
    if |t| > 0 && AllDigits(t) then Some(DigitsValue(t)) else None
  }

  /** Python 2 `int(text)` for base-10 text: blanks around an optionally
      signed run of digits; anything else is the ValueError, here `None`. */
  function ParseInt(s: string): (r: Option<int>)
    ensures r.Some? ==>
              var t := Strip(s);
              && |t| > 0
              && (IsDigit(t[0]) || t[0] == '-' || t[0] == '+')
              && (forall i :: 0 < i < |t| ==> IsDigit(t[i]))
    ensures r.Some? && r.value < 0 ==> Strip(s)[0] == '-'
  {
    var t := Strip(s);
    var signed := |t| > 0 && (t[0] == '-' || t[0] == '+');
    match (if signed then ParseDigits(t[1..]) else ParseDigits(t))
    case None => None
    case Some(v) =>
      var n: int := v;
      if signed && t[0] == '-' then Some(-n) else Some(n)
  }

  function DigitChar(d: nat): (c: char)
    requires d < 10
    ensures IsDigit(c) && c as int - '0' as int == d
  {
    ('0' as int + d) as char
  }

  /** Decimal digits of `n`, as Python's `str(n)` writes them. */
  function NatToDigits(n: nat): (t: string)
    ensures |t| > 0 && AllDigits(t)
    ensures DigitsValue(t) == n
  {
    if n < 10 then [DigitChar(n)]
    else
      var t := NatToDigits(n / 10) + [DigitChar(n % 10)];
      assert t[..|t| - 1] == NatToDigits(n / 10);
      t
  }

  /** `str(n)` for an int: a minus sign for negatives, then the digits. */
  function IntToString(n: int): (t: string)
    ensures |t| > 0
  {
    if n < 0 then "-" + NatToDigits(-n) else NatToDigits(n)
  }

  /** Whatever blanks surround it, the decimal rendering of `n` reads back as `n`. */
  lemma ParseIntRoundTrip(n: int, before: string, after: string)
    requires forall i :: 0 <= i < |before| ==> IsSpace(before[i])
    requires forall i :: 0 <= i < |after| ==> IsSpace(after[i])
    ensures ParseInt(before + IntToString(n) + after) == Some(n)
  {
    var t := IntToString(n);
    RenderingEnds(n);
    StripPadded(before, t, after);
    ParseRendering(n);
    SameStripSameInt(before + t + after, t);
  }

  /** The decimal rendering starts and ends with a non-blank. */
  lemma RenderingEnds(n: int)
    ensures var t := IntToString(n); !IsSpace(t[0]) && !IsSpace(t[|t| - 1])
  {
    var t := IntToString(n);
    if n < 0 {
      assert t[0] == '-' && t[|t| - 1] == NatToDigits(-n)[|t| - 2];
    }
  }

  lemma SameStripSameInt(s1: string, s2: string)
    requires Strip(s1) == Strip(s2)
    ensures ParseInt(s1) == ParseInt(s2)
  {
  }

  /** The rendering has no blanks to strip, and `int()` reads it back. */
  lemma ParseRendering(n: int)
    ensures Strip(IntToString(n)) == IntToString(n)
    ensures ParseInt(IntToString(n)) == Some(n)
  {
    var t := IntToString(n);
    RenderingEnds(n);
    StripPadded("", t, "");
    assert "" + t + "" == t;
    ParseUnpadded(n);
  }

  lemma ParseUnpadded(n: int)
    requires Strip(IntToString(n)) == IntToString(n)
    ensures ParseInt(IntToString(n)) == Some(n)
  {
    var t := IntToString(n);
    if n < 0 {
      assert t[1..] == NatToDigits(-n);
    } else {
      assert IsDigit(t[0]);
    }
  }

  lemma StripPadded(before: string, t: string, after: string)
    requires forall i :: 0 <= i < |before| ==> IsSpace(before[i])
    requires forall i :: 0 <= i < |after| ==> IsSpace(after[i])
    requires |t| > 0 && !IsSpace(t[0]) && !IsSpace(t[|t| - 1])
    ensures Strip(before + t + after) == t
  {
    StripLeftPrefix(before, t + after);
    assert before + (t + after) == before + t + after;
    StripRightSuffix(t, after);
  }

  lemma {:induction false} StripLeftPrefix(blank: string, rest: string)
    requires forall i :: 0 <= i < |blank| ==> IsSpace(blank[i])
    requires |rest| > 0 && !IsSpace(rest[0])
    ensures StripLeft(blank + rest) == rest
    decreases |blank|
  {
    if |blank| > 0 {
      assert (blank + rest)[1..] == blank[1..] + rest;
      StripLeftPrefix(blank[1..], rest);
    } else {
      assert blank + rest == rest;
    }
  }

  lemma {:induction false} StripRightSuffix(rest: string, blank: string)
    requires forall i :: 0 <= i < |blank| ==> IsSpace(blank[i])
    requires |rest| > 0 && !IsSpace(rest[|rest| - 1])
    ensures StripRight(rest + blank) == rest
    decreases |blank|
  {
    if |blank| > 0 {
      assert (rest + blank)[..|rest + blank| - 1] == rest + blank[..|blank| - 1];
      StripRightSuffix(rest, blank[..|blank| - 1]);
    } else {
      assert rest + blank == rest;
    }
  }

  /** A character other than a digit, a sign or a blank makes `int()` fail. */
  lemma ParseIntRejectsStrayCharacter(s: string, i: int)
    requires 0 <= i < |s|
    requires !IsDigit(s[i]) && !IsSpace(s[i]) && s[i] != '-' && s[i] != '+'
    ensures ParseInt(s).None?
  {
    var t := Strip(s);
    var k := StrayCharacterSurvivesStrip(s, i);
    if |t| > 0 && (t[0] == '-' || t[0] == '+') {
      assert k >= 1 && t[1..][k - 1] == s[i];
      assert !AllDigits(t[1..]);
      assert ParseDigits(t[1..]).None?;
    } else {
      assert !AllDigits(t);
      assert ParseDigits(t).None?;
    }
  }

  /** A non-blank character is kept by `strip()`, at some position `k`. */
  lemma StrayCharacterSurvivesStrip(s: string, i: int) returns (k: int)
    requires 0 <= i < |s| && !IsSpace(s[i])
    ensures 0 <= k < |Strip(s)| && Strip(s)[k] == s[i]
  {
    var l := StripLeft(s);
    k := i - (|s| - |l|);
    assert 0 <= k < |l| && l[k] == s[i];
    var t := StripRight(l);
    assert k < |t| && t[k] == s[i];
  }
}

=== FILE: comparator.dfy ===
/** The comparison half of parse-jtl.py (`compare_success_rates`,
    `compare_elapsed_times`, `compare_csv`): each API call of the current run
    is checked against the tolerance table (success rate) and the baseline
    table (average time), and the failed checks are tallied. Verdicts are
    data here; the coloured message strings are not modelled. */
module Comparator {
  import opened Wrappers
  import opened Builtins
  import opened Thresholds
  import Folds
  import JtlParser

  /** Verdict of the success-rate check, with the numbers its message reports. */
  datatype SuccessCheck = SuccessOk | SuccessTooLow(current: int, required: real)

  /** Verdict of the timing check, with the numbers its message reports (the
      baseline as used, that is after a zero baseline became 1). */
  datatype TimingCheck = TimingOk | TimingTooSlow(current: int, baseline: Number, deviance: real, allowed: real)

  /** `compare_success_rates`: a strict comparison, so meeting the required
      rate exactly passes. */
  function CompareSuccessRates(current: int, required: real): (c: SuccessCheck)
    ensures c.SuccessTooLow? <==> (current as real) < required
    ensures c.SuccessTooLow? ==> c.current == current && c.required == required
  {
    if (current as real) < required then SuccessTooLow(current, required) else SuccessOk
  }

  /** The baseline the timing check divides by: a baseline equal to zero (int
      or float) is replaced by the int 1. */
  function EffectiveBaseline(b: Number): (e: Number)
    ensures e.Value() != 0.0
    ensures b.Value() != 0.0 ==> e == b
    ensures b.Value() == 0.0 ==> e == Int(1)
  {
    if b.Value() == 0.0 then Int(1) else b
  }

  /** The relative deviance of `current` from `base`, in percent, with exact
      division. */
  function RelativeDeviance(current: int, base: real): real
    requires base != 0.0
  {
    ((current as real) - base) * 100.0 / base
  }

  /** The deviance `compare_elapsed_times` computes, in percent: a whole
      number against an int baseline, the plain difference ×100 against a zero
      baseline, and never negative exactly when the call is no faster than a
      positive baseline. Its relation to the exact relative deviance is stated
      by `DevianceMeaning`. */
  function Deviance(current: int, baseline: Number): (d: real)
    ensures EffectiveBaseline(baseline).Int? ==> d == d.Floor as real
    ensures baseline.Value() == 0.0 ==> d == ((current - 1) * 100) as real
    ensures baseline.Value() > 0.0 ==> (d >= 0.0 <==> current as real >= baseline.Value())
  {
    DeviationSign(current, baseline);
    match EffectiveBaseline(baseline)
    case Int(b) => FloorDiv((current - b) * 100, b) as real
    case Float(b) => RelativeDeviance(current, b)
  }

  /** With a float baseline the deviance is the exact relative deviance; with
      an int baseline Python 2 evaluates `((current - baseline) * 100) /
      baseline` on ints, which gives the floor of the exact value; a zero
      baseline is measured against 1, so it never divides by zero. */
  lemma DevianceMeaning(current: int, baseline: Number)
    ensures baseline.Float? && baseline.x != 0.0 ==> Deviance(current, baseline) == RelativeDeviance(current, baseline.x)
    ensures baseline.Int? && baseline.i != 0 ==>
              var d := Deviance(current, baseline);
              d == d.Floor as real && d <= RelativeDeviance(current, baseline.i as real) < d + 1.0
    ensures baseline.Value() == 0.0 ==> Deviance(current, baseline) == RelativeDeviance(current, 1.0)
  {
    var b := EffectiveBaseline(baseline);
    if b.Int? {
      FloorDivIsFloor((current - b.i) * 100, b.i);
      assert ((current - b.i) * 100) as real == ((current as real) - (b.i as real)) * 100.0;
    }
  }

  /** Against a positive baseline, both forms of the deviance are negative
      exactly when the call is faster than the baseline. */
  lemma DeviationSign(current: int, baseline: Number)
    ensures baseline.Int? && baseline.i > 0 ==>
              (FloorDiv((current - baseline.i) * 100, baseline.i) >= 0 <==> current >= baseline.i)
    ensures baseline.Float? && baseline.x > 0.0 ==>
              (RelativeDeviance(current, baseline.x) >= 0.0 <==> current as real >= baseline.x)
  {
    if baseline.Int? && baseline.i > 0 {
      var a, b := (current - baseline.i) * 100, baseline.i;
      var q := FloorDiv(a, b);
      if q < 0 {
        PositiveFactor(q + 1, b);
        assert q * b + b == (q + 1) * b;
      } else {
        PositiveFactor(q, b);
      }
    }
    if baseline.Float? && baseline.x > 0.0 {
      var diff := (current as real - baseline.x) * 100.0;
      assert diff / baseline.x * baseline.x == diff;
    }
  }

  /** Over the reals, Python 2's int quotient is the floor of the exact quotient. */
  lemma FloorDivIsFloor(a: int, b: int)
    requires b != 0
    ensures (FloorDiv(a, b) as real) <= (a as real) / (b as real) < (FloorDiv(a, b) as real) + 1.0
  {
    var q := FloorDiv(a, b);
    if b > 0 {
      assert q * b <= a < (q + 1) * b;
      ScaleByPositive(a as real, b as real, q as real);
      ScaleByPositive(a as real, b as real, (q + 1) as real);
    } else {
      assert q * (-b) <= -a < (q + 1) * (-b);
      ScaleByPositive(-a as real, -b as real, q as real);
      ScaleByPositive(-a as real, -b as real, (q + 1) as real);
      assert (-a as real) / (-b as real) == (a as real) / (b as real);
    }
  }

  /** Comparing `k * y` with `x` for a positive `y` compares `k` with `x / y`. */
  lemma ScaleByPositive(x: real, y: real, k: real)
    requires y > 0.0
    ensures k * y <= x ==> k <= x / y
    ensures x < k * y ==> x / y < k
  {
    var r := x / y;
    assert r * y == x;
    assert (k - r) * y == k * y - x;
  }

  /** `compare_elapsed_times`: fails exactly when the deviance exceeds the
      allowed deviance. */
  function CompareElapsedTimes(current: int, baseline: Number, allowed: real): (c: TimingCheck)
    ensures c.TimingTooSlow? <==> Deviance(current, baseline) > allowed
    ensures c.TimingTooSlow? ==>
              && c.current == current && c.allowed == allowed
              && c.baseline == EffectiveBaseline(baseline) && c.baseline.Value() != 0.0
              && c.deviance == Deviance(current, baseline) && c.deviance > c.allowed
  {
    var d := Deviance(current, baseline);
    if d > allowed then TimingTooSlow(current, EffectiveBaseline(baseline), d, allowed) else TimingOk
  }

  /** The success check's boundary is inclusive: a rate equal to the required
      rate passes, and a rate that passes keeps passing when it rises. */
  lemma SuccessCheckInclusive(current: int, better: int, required: real)
    requires current <= better
    ensures CompareSuccessRates(current, current as real).SuccessOk?
    ensures CompareSuccessRates(current, required).SuccessOk? ==> CompareSuccessRates(better, required).SuccessOk?
  {
  }

  /** A current average equal to the baseline never fails the timing check
      when the allowed deviance is non-negative: the deviance is 0, or -100
      when both are 0 and the baseline is measured against 1. */
  lemma ExactMatchPasses(current: int, baseline: Number, allowed: real)
    requires current as real == baseline.Value()
    requires allowed >= 0.0
    ensures baseline.Value() != 0.0 ==> Deviance(current, baseline) == 0.0
    ensures baseline.Value() == 0.0 ==> Deviance(current, baseline) == -100.0
    ensures CompareElapsedTimes(current, baseline, allowed).TimingOk?
  {
    DevianceMeaning(current, baseline);
    if baseline.Int? && baseline.i != 0 {
      var d := Deviance(current, baseline);
      assert RelativeDeviance(current, baseline.i as real) == 0.0;
      assert d.Floor == 0;
    }
  }

  /** Against a positive baseline a slower run deviates at least as much, so
      it fails the timing check whenever a faster one does. */
  lemma TimingMonotone(faster: int, slower: int, baseline: Number, allowed: real)
    requires faster <= slower
    requires baseline.Value() > 0.0
    ensures Deviance(faster, baseline) <= Deviance(slower, baseline)
    ensures CompareElapsedTimes(faster, baseline, allowed).TimingTooSlow? ==>
              CompareElapsedTimes(slower, baseline, allowed).TimingTooSlow?
  {
    match baseline
    case Int(b) =>
      FloorDivMonotone((faster - b) * 100, (slower - b) * 100, b);
    case Float(b) =>
      assert ((faster as real) - b) * 100.0 <= ((slower as real) - b) * 100.0;
      ScaleByPositive(((slower as real) - b) * 100.0, b, RelativeDeviance(faster, b));
      assert RelativeDeviance(faster, b) * b == ((faster as real) - b) * 100.0;
  }

  /** The outcome for one API call of the current run. */
  datatype CallReport = CallReport(call: string, success: SuccessCheck, timing: TimingCheck)
  {
    /** Reported as `[OK]`: neither check failed. */
    predicate Ok()
    {
      success.SuccessOk? && timing.TimingOk?
    }

    /** What this call adds to the failure tally. */
    function Failures(): int
    {
      (if success.SuccessTooLow? then 1 else 0) + (if timing.TimingTooSlow? then 1 else 0)
    }
  }

  /** Both checks of one API call, against its own baseline and tolerance entries. */
  function CompareCall(call: string, stat: JtlParser.Stat, baseline: Number, tolerance: Tolerance): (rep: CallReport)
    ensures rep.call == call
    ensures rep.success.SuccessTooLow? <==> (stat.successPct as real) < tolerance.requiredSuccess
    ensures rep.timing.TimingTooSlow? <==> Deviance(stat.average, baseline) > tolerance.allowedDeviance
    ensures 0 <= rep.Failures() <= 2
    ensures rep.Failures() == 0 <==> rep.Ok()
  {
    CallReport(call,
               CompareSuccessRates(stat.successPct, tolerance.requiredSuccess),
               CompareElapsedTimes(stat.average, baseline, tolerance.allowedDeviance))
  }

  /** Which table lacked an entry: `compare_csv` looks a call up in the
      tolerance table first, then in the baseline table, and a missing entry
      is a KeyError that aborts the comparison. */
  datatype Table = ToleranceTable | BaselineTable
  datatype MissingKey = MissingKey(call: string, table: Table)

  /** The checks of all calls, in the order the current results are walked,
      and the number of failed checks. */
  datatype Comparison = Comparison(reports: seq<CallReport>, failures: int)

  /** The check of the call named `k` (a passing report when it cannot be
      compared, which `compare_csv` never reaches). */
  function ReportOf(current: map<string, JtlParser.Stat>, baseline: map<string, Number>,
                    tolerance: map<string, Tolerance>): string -> CallReport
  {
    (k: string) =>
      if k in current && k in baseline && k in tolerance
      then CompareCall(k, current[k], baseline[k], tolerance[k])
      else CallReport(k, SuccessOk, TimingOk)
  }

  /** What each key adds to the tally under `check`. */
  function FailuresIn<K>(check: K -> CallReport): K -> int
  {
    (k: K) => check(k).Failures()
  }

  /** What the call named `k` adds to the tally (0 when it cannot be compared). */
  function FailuresOf(current: map<string, JtlParser.Stat>, baseline: map<string, Number>,
                      tolerance: map<string, Tolerance>): string -> int
  {
    FailuresIn(ReportOf(current, baseline, tolerance))
  }

  /** Can the call named `k` be compared at all? */
  predicate Comparable(baseline: map<string, Number>, tolerance: map<string, Tolerance>, k: string)
  {
    k in tolerance && k in baseline
  }

  /** The lookups `compare_csv` makes before checking a call, over the calls
      in walking order: the first call missing from the tolerance table or,
      failing that, from the baseline table, if any. */
  method FindMissing(baseline: map<string, Number>, tolerance: map<string, Tolerance>, order: seq<string>)
    returns (r: Option<MissingKey>)
    ensures r.None? <==> forall j :: 0 <= j < |order| ==> Comparable(baseline, tolerance, order[j])
    ensures r.Some? ==>
              && (r.value.table == ToleranceTable ==> r.value.call !in tolerance)
              && (r.value.table == BaselineTable ==> r.value.call in tolerance && r.value.call !in baseline)
              && exists i :: 0 <= i < |order| && order[i] == r.value.call
                             && forall j :: 0 <= j < i ==> Comparable(baseline, tolerance, order[j])
  {
    var i := 0;
    while i < |order|
      invariant 0 <= i <= |order|
      invariant forall j :: 0 <= j < i ==> Comparable(baseline, tolerance, order[j])
    {
      var k := order[i];
      if k !in tolerance {
        return Some(MissingKey(k, ToleranceTable));
      }
      if k !in baseline {
        return Some(MissingKey(k, BaselineTable));
      }
      i := i + 1;
    }
    return None;
  }

  /** The checking loop of `compare_csv`: every key is checked in turn and
      its failed checks are added to the tally, which ends at zero exactly
      when every report passed. */
  method CheckAll<K>(keys: seq<K>, check: K -> CallReport) returns (reports: seq<CallReport>, failures: int)
    requires forall k :: 0 <= check(k).Failures() <= 2 && (check(k).Failures() == 0 <==> check(k).Ok())
    ensures |reports| == |keys|
    ensures forall i :: 0 <= i < |keys| ==> reports[i] == check(keys[i])
    ensures failures == Folds.SumOf(keys, FailuresIn(check))
    ensures failures == 0 <==> forall i :: 0 <= i < |reports| ==> reports[i].Ok()
  {
    reports := [];
    failures := 0;
    var i := 0;
    while i < |keys|
      invariant 0 <= i <= |keys|
      invariant |reports| == i
      invariant forall j :: 0 <= j < i ==> reports[j] == check(keys[j])
      invariant failures == Folds.SumOf(keys[..i], FailuresIn(check))
      invariant failures >= 0
      invariant failures == 0 <==> forall j :: 0 <= j < i ==> reports[j].Ok()
    {
      var rep := check(keys[i]);
      // Both checks run; each failed one adds 1 to the tally.
      failures := failures + rep.Failures();
      reports := reports + [rep];
      assert keys[..i + 1] == keys[..i] + [keys[i]];
      Folds.SumOfSnoc(keys[..i], keys[i], FailuresIn(check));
      i := i + 1;
    }
    assert keys[..i] == keys;
  }

  /** `compare_csv`. `order` is the order in which the current results are
      walked (Python's dict order): every call exactly once. A call missing
      from either table aborts the comparison with the first such call;
      otherwise every call is checked and the failed checks are counted. */
  method CompareCsv(current: map<string, JtlParser.Stat>, baseline: map<string, Number>,
                    tolerance: map<string, Tolerance>, order: seq<string>)
    returns (r: Result<Comparison, MissingKey>)
    requires multiset(order) == multiset(current.Keys)
    ensures r.Failure? <==> exists k :: k in current && !Comparable(baseline, tolerance, k)
    ensures r.Failure? ==>
              && r.error.call in current
              && (r.error.table == ToleranceTable ==> r.error.call !in tolerance)
              && (r.error.table == BaselineTable ==> r.error.call in tolerance && r.error.call !in baseline)
              && exists i :: 0 <= i < |order| && order[i] == r.error.call
                             && forall j :: 0 <= j < i ==> Comparable(baseline, tolerance, order[j])
    ensures r.Success? ==>
              && |r.value.reports| == |order|
              && (forall i :: 0 <= i < |order| ==>
                    && order[i] in current && order[i] in baseline && order[i] in tolerance
                    && r.value.reports[i] == CompareCall(order[i], current[order[i]], baseline[order[i]], tolerance[order[i]]))
              && r.value.failures == Folds.SumOf(order, FailuresOf(current, baseline, tolerance))
              && (r.value.failures == 0 <==> forall i :: 0 <= i < |order| ==> r.value.reports[i].Ok())
  {
    EnumerationCoversKeys(current, order);
    var missing := FindMissing(baseline, tolerance, order);
    if missing.Some? {
      assert missing.value.call in order;
      return Failure(missing.value);
    }
    assert forall k :: k in current ==> Comparable(baseline, tolerance, k) by {
      forall k | k in current
        ensures Comparable(baseline, tolerance, k)
      {
        var j :| 0 <= j < |order| && order[j] == k;
      }
    }
    var comparison := CheckCalls(current, baseline, tolerance, order);
    r := Success(comparison);
  }

  /** The checking half of `compare_csv`, once every call is known to be
      comparable. */
  method CheckCalls(current: map<string, JtlParser.Stat>, baseline: map<string, Number>,
                    tolerance: map<string, Tolerance>, order: seq<string>)
    returns (c: Comparison)
    requires forall k :: k in order ==> k in current && Comparable(baseline, tolerance, k)
    ensures |c.reports| == |order|
    ensures forall i :: 0 <= i < |order| ==>
              && order[i] in current && order[i] in baseline && order[i] in tolerance
              && c.reports[i] == CompareCall(order[i], current[order[i]], baseline[order[i]], tolerance[order[i]])
    ensures c.failures == Folds.SumOf(order, FailuresOf(current, baseline, tolerance))
    ensures c.failures == 0 <==> forall i :: 0 <= i < |order| ==> c.reports[i].Ok()
  {
    var check := ReportOf(current, baseline, tolerance);
    forall k ensures 0 <= check(k).Failures() <= 2 && (check(k).Failures() == 0 <==> check(k).Ok()) {
    }
    var reports, failures := CheckAll(order, check);
    assert forall i :: 0 <= i < |order| ==> order[i] in order;
    c := Comparison(reports, failures);
  }

  /** Walking the results visits exactly the calls of the current run. */
  lemma EnumerationCoversKeys(current: map<string, JtlParser.Stat>, order: seq<string>)
    requires multiset(order) == multiset(current.Keys)
    ensures forall k :: k in order <==> k in current
  {
    forall k ensures k in order <==> k in current {
      assert k in order <==> k in multiset(order);
      assert k in current <==> k in multiset(current.Keys);
    }
  }

  /** The failure tally does not depend on the order in which the calls are
      walked. */
  lemma FailureTallyOrderIndependent(current: map<string, JtlParser.Stat>, baseline: map<string, Number>,
                                     tolerance: map<string, Tolerance>, order1: seq<string>, order2: seq<string>)
    requires multiset(order1) == multiset(current.Keys)
    requires multiset(order2) == multiset(current.Keys)
    ensures Folds.SumOf(order1, FailuresOf(current, baseline, tolerance))
         == Folds.SumOf(order2, FailuresOf(current, baseline, tolerance))
  {
    Folds.SumOfPermutation(order1, order2, FailuresOf(current, baseline, tolerance));
  }
}

=== FILE: corpus.dfy ===
/** The historical corpus both estimators read (param_estimator.py and
    estimate_allowed_deviance.py): one statistics file per earlier run, files
    that are not valid JSON skipped, and per API call the list of success
    rates and of average times over the runs that contain the call. */
module Corpus {
  import opened Wrappers
  import Folds

  /** The fields of one API call's entry that the estimators read. */
  datatype Record = Record(count: int, success: int, average: real)

  /** One persisted run: API call name to its entry. */
  type Run = map<string, Record>

  /** One file of the corpus directory: its decoded JSON, or `None` when
      `json.load` raised `ValueError`. */
  datatype CorpusFile = CorpusFile(name: string, contents: Option<Run>)

  /** 1 for a file that decoded. */
  function Decoded(): CorpusFile -> int
  {
    (f: CorpusFile) => if f.contents.Some? then 1 else 0
  }

  /** 1 for a file that decoded to exactly `r`. */
  function DecodesTo(r: Run): CorpusFile -> int
  {
    (f: CorpusFile) => if f.contents == Some(r) then 1 else 0
  }

  /** `_add_perf_test_result` applied to every file of the directory: a file
      that fails to decode contributes nothing, every other file contributes
      its run. The directory listing names each file once, so the results
      dictionary keyed by file name holds exactly these runs: each run occurs
      once per file that decoded to it. */
  function LoadRuns(files: seq<CorpusFile>): (runs: seq<Run>)
    ensures |runs| == Folds.SumOf(files, Decoded())
    ensures forall r :: r in runs <==> exists i :: 0 <= i < |files| && files[i].contents == Some(r)
    ensures forall r :: multiset(runs)[r] == Folds.SumOf(files, DecodesTo(r))
  {
    if |files| == 0 then []
    else
      var init, last := files[..|files| - 1], files[|files| - 1];
      assert forall i :: 0 <= i < |init| ==> init[i] == files[i];
      LoadRuns(init) + (match last.contents case None => [] case Some(r) => [r])
  }

  /** Loading a listing split in two loads each part and keeps file order:
      with the one-file case, this fixes the loaded sequence exactly. */
  lemma {:induction false} LoadRunsAppend(a: seq<CorpusFile>, b: seq<CorpusFile>)
    ensures LoadRuns(a + b) == LoadRuns(a) + LoadRuns(b)
    decreases |b|
  {
    if |b| == 0 {
      assert a + b == a;
    } else {
      var b' := b[..|b| - 1];
      assert (a + b)[..|a + b| - 1] == a + b';
      assert (a + b)[|a + b| - 1] == b[|b| - 1];
      LoadRunsAppend(a, b');
    }
  }

  /** One file loads to its run, or to nothing when it does not decode. */
  lemma LoadOne(f: CorpusFile)
    ensures LoadRuns([f]) == if f.contents.Some? then [f.contents.value] else []
  {
    assert [f][..0] == [];
  }

  /** Every API call that occurs in some run. */
  function Calls(runs: seq<Run>): (calls: set<string>)
    ensures forall c :: c in calls <==> exists i :: 0 <= i < |runs| && c in runs[i]
  {
    if |runs| == 0 then {}
    else
      var init := runs[..|runs| - 1];
      assert forall i :: 0 <= i < |init| ==> init[i] == runs[i];
      Calls(init) + runs[|runs| - 1].Keys
  }

  /** No entry has a zero count (`float(success) / float(count)` would raise). */
  predicate NoZeroCount(runs: seq<Run>)
  {
    forall i, c :: 0 <= i < |runs| && c in runs[i] ==> runs[i][c].count != 0
  }

  /** The two per-run figures gathered per API call. */
  datatype Field = SuccessRate | AverageTime

  /** Can `f` be read from `r` without dividing by zero? */
  predicate Readable(r: Record, f: Field)
  {
    f == SuccessRate ==> r.count != 0
  }

  /** The success rate is recomputed as `success / count` rather than read
      from the file, where it is rounded. */
  function Value(r: Record, f: Field): (v: real)
    requires Readable(r, f)
    ensures f == SuccessRate && 0 <= r.success <= r.count ==> 0.0 <= v <= 1.0
    ensures f == AverageTime ==> v == r.average
  {
    UnitFraction(r.success, r.count);
    match f
    case SuccessRate => r.success as real / r.count as real
    case AverageTime => r.average
  }

  predicate AllReadable(runs: seq<Run>, f: Field)
  {
    forall i, c :: 0 <= i < |runs| && c in runs[i] ==> Readable(runs[i][c], f)
  }

  /** 1 for a run that contains `c`. */
  function Contains(c: string): Run -> int
  {
    (r: Run) => if c in r then 1 else 0
  }

  /** The number of runs that contain `c`. */
  function Occurrences(runs: seq<Run>, c: string): int
  {
    Folds.SumOf(runs, Contains(c))
  }

  /** The list gathered for call `c`: one value per run that contains `c`,
      in run order. */
  function Column(runs: seq<Run>, c: string, f: Field): (col: seq<real>)
    requires AllReadable(runs, f)
    ensures |col| == Occurrences(runs, c)
    ensures forall x :: x in col <==> exists i :: 0 <= i < |runs| && c in runs[i] && x == Value(runs[i][c], f)
  {
    if |runs| == 0 then []
    else
      var init, last := runs[..|runs| - 1], runs[|runs| - 1];
      assert forall i :: 0 <= i < |init| ==> init[i] == runs[i];
      Column(init, c, f) + (if c in last then [Value(last[c], f)] else [])
  }

  /** A call occurs in some run exactly when its list is non-empty. */
  lemma ColumnNonEmpty(runs: seq<Run>, c: string, f: Field)
    requires AllReadable(runs, f)
    ensures c in Calls(runs) <==> |Column(runs, c, f)| > 0
  {
    if c in Calls(runs) {
      var i :| 0 <= i < |runs| && c in runs[i];
      assert Value(runs[i][c], f) in Column(runs, c, f);
    }
  }

  /** 1 for a run whose entry for `c` has value `x`. */
  function Hits(c: string, f: Field, x: real): Run -> int
  {
    (r: Run) => if c in r && Readable(r[c], f) && Value(r[c], f) == x then 1 else 0
  }

  lemma {:induction false} ColumnMultiplicity(runs: seq<Run>, c: string, f: Field, x: real)
    requires AllReadable(runs, f)
    ensures multiset(Column(runs, c, f))[x] == Folds.SumOf(runs, Hits(c, f, x))
    decreases |runs|
  {
    if |runs| > 0 {
      var init := runs[..|runs| - 1];
      assert AllReadable(init, f) by {
        assert forall i :: 0 <= i < |init| ==> init[i] == runs[i];
      }
      ColumnMultiplicity(init, c, f, x);
    }
  }

  /** Reordering the runs only reorders each gathered list. */
  lemma ColumnPermutation(a: seq<Run>, b: seq<Run>, c: string, f: Field)
    requires multiset(a) == multiset(b)
    requires AllReadable(a, f)
    ensures AllReadable(b, f)
    ensures multiset(Column(a, c, f)) == multiset(Column(b, c, f))
  {
    forall i, k | 0 <= i < |b| && k in b[i]
      ensures Readable(b[i][k], f)
    {
      assert b[i] in multiset(a);
    }
    forall x ensures multiset(Column(a, c, f))[x] == multiset(Column(b, c, f))[x] {
      ColumnMultiplicity(a, c, f, x);
      ColumnMultiplicity(b, c, f, x);
      Folds.SumOfPermutation(a, b, Hits(c, f, x));
    }
  }

  /** Both lists the gathering step keeps per API call (the second is left
      out by the older estimator, which only reads success rates). */
  datatype Gathered = Gathered(successRates: map<string, seq<real>>, avgElapsedTimes: map<string, seq<real>>)

  /** The list `setdefault(c, [])` finds for `c`. */
  function ListOf(m: map<string, seq<real>>, c: string): seq<real>
  {
    if c in m then m[c] else []
  }

  /** `after` is `before` with `extra[c]` appended to the list of every call
      `c` of `extra` (a call seen for the first time starts a list), and every
      other list as it was. */
  predicate Appended(before: map<string, seq<real>>, after: map<string, seq<real>>, extra: map<string, real>)
  {
    && after.Keys == before.Keys + extra.Keys
    && (forall c :: c in before && c !in extra ==> after[c] == before[c])
    && (forall c :: c in extra ==> after[c] == ListOf(before, c) + [extra[c]])
  }

  /** The `setdefault(c, []).append(extra[c])` step for every call `c` of
      `extra`. */
  function AppendEach(before: map<string, seq<real>>, extra: map<string, real>): (after: map<string, seq<real>>)
    ensures Appended(before, after, extra)
  {
    map c | c in before.Keys + extra.Keys ::
      (if c in before then before[c] else []) + (if c in extra then [extra[c]] else [])
  }

  /** One run's contribution: `setdefault(call, []).append(...)` for each of
      its calls. */
  function AddRun(g: Gathered, run: Run): (r: Gathered)
    requires forall c :: c in run ==> run[c].count != 0
    ensures Appended(g.successRates, r.successRates, map c | c in run :: Value(run[c], SuccessRate))
    ensures Appended(g.avgElapsedTimes, r.avgElapsedTimes, map c | c in run :: Value(run[c], AverageTime))
  {
    Gathered(AppendEach(g.successRates, map c | c in run :: Value(run[c], SuccessRate)),
             AppendEach(g.avgElapsedTimes, map c | c in run :: Value(run[c], AverageTime)))
  }

  /** `_gather_required_data`: the runs in order, each appending to the lists
      of its calls. */
  function GatherRequiredData(runs: seq<Run>): (g: Gathered)
    requires NoZeroCount(runs)
    ensures g.successRates.Keys == g.avgElapsedTimes.Keys
  {
    if |runs| == 0 then Gathered(map[], map[])
    else
      var init := runs[..|runs| - 1];
      assert NoZeroCount(init) by {
        assert forall i :: 0 <= i < |init| ==> init[i] == runs[i];
      }
      AddRun(GatherRequiredData(init), runs[|runs| - 1])
  }

  /** After gathering, a call has an entry exactly when it occurs in the
      corpus, and the entry holds that call's success-rate and average-time
      columns. */
  lemma {:induction false} GatherMeaning(runs: seq<Run>, c: string)
    requires NoZeroCount(runs)
    ensures var g := GatherRequiredData(runs);
            && (c in g.successRates <==> c in Calls(runs))
            && (c in g.successRates ==>
                  && g.successRates[c] == Column(runs, c, SuccessRate)
                  && g.avgElapsedTimes[c] == Column(runs, c, AverageTime))
    decreases |runs|
  {
    if |runs| > 0 {
      var init, last := runs[..|runs| - 1], runs[|runs| - 1];
      assert forall i :: 0 <= i < |init| ==> init[i] == runs[i];
      GatherMeaning(init, c);
      var g0 := GatherRequiredData(init);
      assert GatherRequiredData(runs) == AddRun(g0, last);
      if c !in g0.successRates {
        ColumnNonEmpty(init, c, SuccessRate);
        ColumnNonEmpty(init, c, AverageTime);
      }
    }
  }

  /** Per call, both lists are as long as the number of runs containing the
      call, which is at least one. */
  lemma GatheredShape(runs: seq<Run>, c: string)
    requires NoZeroCount(runs)
    requires c in Calls(runs)
    ensures var g := GatherRequiredData(runs);
            && c in g.successRates && c in g.avgElapsedTimes
            && |g.successRates[c]| == |g.avgElapsedTimes[c]| == Occurrences(runs, c)
            && Occurrences(runs, c) > 0
  {
    GatherMeaning(runs, c);
    ColumnNonEmpty(runs, c, SuccessRate);
  }

  /** Every gathered success rate lies in [0, 1] when no entry reports more
      successes than calls or fewer than none. */
  lemma RatesWithinUnit(runs: seq<Run>, c: string)
    requires NoZeroCount(runs)
    requires forall i, k :: 0 <= i < |runs| && k in runs[i] ==> 0 <= runs[i][k].success <= runs[i][k].count
    ensures forall x :: x in Column(runs, c, SuccessRate) ==> 0.0 <= x <= 1.0
  {
    forall x | x in Column(runs, c, SuccessRate)
      ensures 0.0 <= x <= 1.0
    {
      var i :| 0 <= i < |runs| && c in runs[i] && x == Value(runs[i][c], SuccessRate);
      var r := runs[i][c];
      assert r.count > 0;
      UnitFraction(r.success, r.count);
    }
  }

  /** `success / count` is a fraction when `0 <= success <= count`. */
  lemma UnitFraction(s: int, n: int)
    ensures 0 <= s <= n && n > 0 ==> 0.0 <= s as real / n as real <= 1.0
  {
    if 0 <= s <= n && n > 0 {
      var q := s as real / n as real;
      assert q * (n as real) == s as real;
    }
  }

  /** Corpora that are a reordering of each other contain the same calls and
      the same entries. */
  lemma SameRuns(a: seq<Run>, b: seq<Run>)
    requires multiset(a) == multiset(b)
    ensures Calls(a) == Calls(b)
    ensures NoZeroCount(a) <==> NoZeroCount(b)
    ensures forall i :: 0 <= i < |a| ==> exists j :: 0 <= j < |b| && b[j] == a[i]
    ensures forall j :: 0 <= j < |b| ==> exists i :: 0 <= i < |a| && a[i] == b[j]
  {
    forall i | 0 <= i < |a| ensures exists j :: 0 <= j < |b| && b[j] == a[i] {
      assert a[i] in multiset(b);
    }
    forall j | 0 <= j < |b| ensures exists i :: 0 <= i < |a| && a[i] == b[j] {
      assert b[j] in multiset(a);
    }
  }
}

=== FILE: deviance_estimator.dfy ===
/** The older estimator of estimate_allowed_deviance.py: it reads only the
    success rates and derives, per API call, the required success and an
    allowed deviance from how far the rates spread around their mean. It
    does not round its results. */
module DevianceEstimator {
  import opened Wrappers
  import Folds
  import opened Thresholds
  import opened Corpus

  /** The list `max_dev` takes the maximum of: one distance from the mean per
      run, never negative, and at most 1 when the mean and the rates are
      fractions. */
  function AbsoluteDeviations(rates: seq<real>, mean: real): (ds: seq<real>)
    ensures |ds| == |rates|
    ensures forall i :: 0 <= i < |rates| ==> ds[i] == Folds.Abs(mean - rates[i])
    ensures forall i :: 0 <= i < |ds| ==> ds[i] >= 0.0
    ensures 0.0 <= mean <= 1.0 && (forall i :: 0 <= i < |rates| ==> 0.0 <= rates[i] <= 1.0) ==>
              forall i :: 0 <= i < |ds| ==> ds[i] <= 1.0
  {
    seq(|rates|, i requires 0 <= i < |rates| => Folds.Abs(mean - rates[i]))
  }

  /** `max_dev`: the largest distance of any run's success rate from the
      mean rate. */
  function MaxAbsDeviation(rates: seq<real>): (m: real)
    requires |rates| > 0
    ensures exists i :: 0 <= i < |rates| && m == Folds.Abs(Folds.Mean(rates) - rates[i])
    ensures forall i :: 0 <= i < |rates| ==> Folds.Abs(Folds.Mean(rates) - rates[i]) <= m
    ensures m >= 0.0
  {
    var ds := AbsoluteDeviations(rates, Folds.Mean(rates));
    assert forall i :: 0 <= i < |rates| ==> ds[i] in ds;
    Folds.Max(ds)
  }

  /** The tolerance for a call whose runs succeeded at `rates`. */
  function ToleranceOf(rates: seq<real>): Tolerance
    requires |rates| > 0
  {
    Tolerance(100.0 * Folds.Mean(rates) - Margin, 100.0 * MaxAbsDeviation(rates) + Margin)
  }

  /** `_estimate_deviances`: gather the success rates of every run, then one
      tolerance per call. A zero count raises `ZeroDivisionError` while
      gathering; nothing else can fail. */
  function EstimateDeviances(runs: seq<Run>): (r: Result<map<string, Tolerance>, EstimateError>)
    ensures r.Failure? <==> !NoZeroCount(runs)
    ensures r.Success? ==> r.value.Keys == Calls(runs)
  {
    if !NoZeroCount(runs) then Failure(ZeroDivision)
    else
      var rates := GatherRequiredData(runs).successRates;
      RatesGathered(runs);
      Success(map c | c in rates :: ToleranceOf(rates[c]))
  }

  lemma RatesGathered(runs: seq<Run>)
    requires NoZeroCount(runs)
    ensures var rates := GatherRequiredData(runs).successRates;
            && rates.Keys == Calls(runs)
            && forall c :: c in rates ==> rates[c] == Column(runs, c, SuccessRate) && |rates[c]| > 0
  {
    forall c {
      RateGathered(runs, c);
    }
  }

  /** `RatesGathered` for one call. */
  lemma RateGathered(runs: seq<Run>, c: string)
    requires NoZeroCount(runs)
    ensures var rates := GatherRequiredData(runs).successRates;
            && (c in rates <==> c in Calls(runs))
            && (c in rates ==> rates[c] == Column(runs, c, SuccessRate) && |rates[c]| > 0)
  {
    GatherMeaning(runs, c);
    assert AllReadable(runs, SuccessRate);
    ColumnNonEmpty(runs, c, SuccessRate);
  }

  /** Each entry is computed from the call's success-rate column: the rate
      of every run that contains the call. */
  lemma EstimateMeaning(runs: seq<Run>, c: string)
    requires NoZeroCount(runs) && c in Calls(runs)
    ensures |Column(runs, c, SuccessRate)| > 0
    ensures EstimateDeviances(runs).Success?
    ensures EstimateDeviances(runs).value[c] == ToleranceOf(Column(runs, c, SuccessRate))
  {
    RatesGathered(runs);
  }

  /** With success rates in [0, 1] the deviance is at most one. */
  lemma MaxAbsDeviationWithinUnit(rates: seq<real>)
    requires |rates| > 0
    requires forall x :: x in rates ==> 0.0 <= x <= 1.0
    ensures 0.0 <= MaxAbsDeviation(rates) <= 1.0
  {
    Folds.MeanWithin(rates, 0.0, 1.0);
    var i :| 0 <= i < |rates| && MaxAbsDeviation(rates) == Folds.Abs(Folds.Mean(rates) - rates[i]);
    assert rates[i] in rates;
  }

  /** When no entry reports more successes than calls, the required success
      lies within [-5, 95] and the allowed deviance within [5, 105]. */
  lemma EstimateBounds(runs: seq<Run>, c: string)
    requires forall i, k :: 0 <= i < |runs| && k in runs[i] ==> 0 <= runs[i][k].success <= runs[i][k].count && runs[i][k].count > 0
    requires c in Calls(runs)
    ensures EstimateDeviances(runs).Success?
    ensures var e := EstimateDeviances(runs).value[c];
            && -5.0 <= e.requiredSuccess <= 95.0
            && Margin <= e.allowedDeviance <= 100.0 + Margin
  {
    EstimateMeaning(runs, c);
    var rates := Column(runs, c, SuccessRate);
    RatesWithinUnit(runs, c);
    Folds.MeanWithin(rates, 0.0, 1.0);
    MaxAbsDeviationWithinUnit(rates);
  }

  /** When every run of a call succeeded at the same rate, the allowed
      deviance is exactly the margin. */
  lemma SteadyRatesNeedOnlyMargin(rates: seq<real>, r: real)
    requires |rates| > 0
    requires forall x :: x in rates ==> x == r
    ensures ToleranceOf(rates).allowedDeviance == Margin
    ensures ToleranceOf(rates).requiredSuccess == 100.0 * r - Margin
  {
    Folds.MeanOfConstant(rates, r);
    var i :| 0 <= i < |rates| && MaxAbsDeviation(rates) == Folds.Abs(Folds.Mean(rates) - rates[i]);
    assert rates[i] in rates;
  }

  lemma MaxAbsDeviationPermutation(a: seq<real>, b: seq<real>)
    requires |a| > 0
    requires multiset(a) == multiset(b)
    ensures |b| > 0
    ensures MaxAbsDeviation(a) == MaxAbsDeviation(b)
  {
    Folds.MeanPermutation(a, b);
    var m := Folds.Mean(a);
    var da, db := AbsoluteDeviations(a, m), AbsoluteDeviations(b, m);
    forall x ensures x in da <==> x in db {
      if x in da {
        var i :| 0 <= i < |a| && da[i] == x;
        assert a[i] in multiset(b);
        var j :| 0 <= j < |b| && b[j] == a[i];
        assert db[j] == x;
      }
      if x in db {
        var j :| 0 <= j < |b| && db[j] == x;
        assert b[j] in multiset(a);
        var i :| 0 <= i < |a| && a[i] == b[j];
        assert da[i] == x;
      }
    }
    Folds.MaxSameElements(da, db);
  }

  lemma EntryOrderIndependent(a: seq<Run>, b: seq<Run>, c: string)
    requires multiset(a) == multiset(b)
    requires NoZeroCount(a) && NoZeroCount(b) && c in Calls(a) && c in Calls(b)
    ensures EstimateDeviances(a).Success? && EstimateDeviances(b).Success?
    ensures EstimateDeviances(a).value[c] == EstimateDeviances(b).value[c]
  {
    EstimateMeaning(a, c);
    EstimateMeaning(b, c);
    ColumnPermutation(a, b, c, SuccessRate);
    ToleranceOfPermutation(Column(a, c, SuccessRate), Column(b, c, SuccessRate));
  }

  lemma ToleranceOfPermutation(a: seq<real>, b: seq<real>)
    requires |a| > 0
    requires multiset(a) == multiset(b)
    ensures |b| > 0
    ensures ToleranceOf(a) == ToleranceOf(b)
  {
    Folds.MeanPermutation(a, b);
    MaxAbsDeviationPermutation(a, b);
  }

  /** The estimate does not depend on the order in which the corpus files
      were listed or the results dictionary was enumerated. */
  lemma EstimateOrderIndependent(a: seq<Run>, b: seq<Run>)
    requires multiset(a) == multiset(b)
    ensures EstimateDeviances(a) == EstimateDeviances(b)
  {
    SameRuns(a, b);
    if NoZeroCount(a) {
      TablesOrderIndependent(a, b);
    }
  }

  lemma TablesOrderIndependent(a: seq<Run>, b: seq<Run>)
    requires multiset(a) == multiset(b)
    requires NoZeroCount(a) && NoZeroCount(b) && Calls(a) == Calls(b)
    ensures EstimateDeviances(a).Success? && EstimateDeviances(b).Success?
    ensures EstimateDeviances(a).value == EstimateDeviances(b).value
  {
    var ea, eb := EstimateDeviances(a).value, EstimateDeviances(b).value;
    forall c | c in ea ensures ea[c] == eb[c] {
      EntryOrderIndependent(a, b, c);
    }
    Folds.MapsEqual(ea, eb);
  }
}

=== FILE: folds.dfy ===
/** Sums over sequences and the algebra the models need from them:
    splitting at a concatenation, invariance under permutation, bounds,
    and the mean/maximum of a non-empty list of reals. */
module Folds {

  /** Integer sum of `f` over the elements of `s`, left to right. */
  function SumOf<T>(s: seq<T>, f: T -> int): int
  {
    if |s| == 0 then 0 else SumOf(s[..|s| - 1], f) + f(s[|s| - 1])
  }

  lemma {:induction false} SumOfAppend<T>(a: seq<T>, b: seq<T>, f: T -> int)
    ensures SumOf(a + b, f) == SumOf(a, f) + SumOf(b, f)
    decreases |b|
  {
    if |b| == 0 {
      assert a + b == a;
    } else {
      var b' := b[..|b| - 1];
      assert (a + b)[..|a + b| - 1] == a + b';
      SumOfAppend(a, b', f);
    }
  }

  lemma SumOfSnoc<T>(s: seq<T>, x: T, f: T -> int)
    ensures SumOf(s + [x], f) == SumOf(s, f) + f(x)
  {
    assert (s + [x])[..|s|] == s;
  }

  /** Taking the last element off `a` and one occurrence of it off a
      permutation `b` leaves permutations of each other. */
  lemma RemoveMatching<T>(a: seq<T>, b: seq<T>) returns (i: nat)
    requires |a| > 0 && multiset(a) == multiset(b)
    ensures i < |b| && b[i] == a[|a| - 1]
    ensures multiset(a[..|a| - 1]) == multiset(b[..i] + b[i + 1..])
  {
    var x := a[|a| - 1];
    var a' := a[..|a| - 1];
    assert a == a' + [x];
    assert x in multiset(b);
    i :| 0 <= i < |b| && b[i] == x;
    var b' := b[..i] + b[i + 1..];
    assert b == b[..i] + [x] + b[i + 1..];
    assert multiset(a) == multiset(a') + multiset{x};
    assert multiset(b) == multiset(b[..i]) + multiset{x} + multiset(b[i + 1..]);
    assert multiset(b') == multiset(b[..i]) + multiset(b[i + 1..]);
    assert multiset(a') == multiset(a) - multiset{x};
    assert multiset(b') == multiset(b) - multiset{x};
  }

  /** Sums do not depend on the order of the summands. */
  lemma {:induction false} SumOfPermutation<T>(a: seq<T>, b: seq<T>, f: T -> int)
    requires multiset(a) == multiset(b)
    ensures SumOf(a, f) == SumOf(b, f)
    decreases |a|
  {
    if |a| == 0 {
      assert |b| == |multiset(b)| == 0;
    } else {
      var x := a[|a| - 1];
      var a' := a[..|a| - 1];
      assert a == a' + [x];
      var i := RemoveMatching(a, b);
      var b' := b[..i] + b[i + 1..];
      assert b == b[..i] + [x] + b[i + 1..];
      SumOfPermutation(a', b', f);
      SumOfAppend(a', [x], f);
      SumOfAppend(b[..i], [x], f);
      SumOfAppend(b[..i] + [x], b[i + 1..], f);
      SumOfAppend(b[..i], b[i + 1..], f);
      assert [x][..0] == [];
    }
  }

  /** A pointwise smaller summand gives a smaller sum. */
  lemma {:induction false} SumOfMonotone<T>(s: seq<T>, f: T -> int, g: T -> int)
    requires forall x :: x in s ==> f(x) <= g(x)
    ensures SumOf(s, f) <= SumOf(s, g)
    decreases |s|
  {
    if |s| > 0 {
      SumOfMonotone(s[..|s| - 1], f, g);
    }
  }

  lemma {:induction false} SumOfNonNegative<T>(s: seq<T>, f: T -> int)
    requires forall x :: x in s ==> f(x) >= 0
    ensures SumOf(s, f) >= 0
    decreases |s|
  {
    if |s| > 0 {
      SumOfNonNegative(s[..|s| - 1], f);
    }
  }

  /** Real sum of a list, left to right. */
  function Sum(s: seq<real>): real
  {
    if |s| == 0 then 0.0 else Sum(s[..|s| - 1]) + s[|s| - 1]
  }

  /** Arithmetic mean: `float(sum(xs)) / len(xs)`. */
  function Mean(s: seq<real>): real
    requires |s| > 0
  {
    Sum(s) / (|s| as real)
  }

  /** The largest element of a non-empty list. */
  function Max(s: seq<real>): (m: real)
    requires |s| > 0
    ensures m in s
    ensures forall x :: x in s ==> x <= m
  {
    if |s| == 1 then s[0]
    else
      var m' := Max(s[..|s| - 1]);
      assert forall x :: x in s ==> x in s[..|s| - 1] || x == s[|s| - 1];
      if s[|s| - 1] > m' then s[|s| - 1] else m'
  }

  /** The smallest element of a non-empty list. */
  function Min(s: seq<real>): (m: real)
    requires |s| > 0
    ensures m in s
    ensures forall x :: x in s ==> m <= x
  {
    if |s| == 1 then s[0]
    else
      var m' := Min(s[..|s| - 1]);
      assert forall x :: x in s ==> x in s[..|s| - 1] || x == s[|s| - 1];
      if s[|s| - 1] < m' then s[|s| - 1] else m'
  }

  lemma {:induction false} SumAppend(a: seq<real>, b: seq<real>)
    ensures Sum(a + b) == Sum(a) + Sum(b)
    decreases |b|
  {
    if |b| == 0 {
      assert a + b == a;
    } else {
      var b' := b[..|b| - 1];
      assert (a + b)[..|a + b| - 1] == a + b';
      SumAppend(a, b');
    }
  }

  lemma {:induction false} SumPermutation(a: seq<real>, b: seq<real>)
    requires multiset(a) == multiset(b)
    ensures Sum(a) == Sum(b)
    decreases |a|
  {
    if |a| == 0 {
      assert |b| == |multiset(b)| == 0;
    } else {
      var x := a[|a| - 1];
      var a' := a[..|a| - 1];
      assert a == a' + [x];
      var i := RemoveMatching(a, b);
      var b' := b[..i] + b[i + 1..];
      assert b == b[..i] + [x] + b[i + 1..];
      SumPermutation(a', b');
      SumAppend(a', [x]);
      SumAppend(b[..i], [x]);
      SumAppend(b[..i] + [x], b[i + 1..]);
      SumAppend(b[..i], b[i + 1..]);
      assert [x][..0] == [];
    }
  }

  /** Every element in [lo, hi] puts the sum in [n*lo, n*hi]. */
  lemma {:induction false} SumBounds(s: seq<real>, lo: real, hi: real)
    requires forall x :: x in s ==> lo <= x <= hi
    ensures (|s| as real) * lo <= Sum(s) <= (|s| as real) * hi
    decreases |s|
  {
    if |s| > 0 {
      var s' := s[..|s| - 1];
      assert forall x :: x in s' ==> x in s;
      SumBounds(s', lo, hi);
      assert s[|s| - 1] in s;
      assert Sum(s) == Sum(s') + s[|s| - 1];
      assert (|s| as real) * lo == (|s'| as real) * lo + lo;
      assert (|s| as real) * hi == (|s'| as real) * hi + hi;
    }
  }

  /** The mean lies within any bounds that hold for every element. */
  lemma MeanWithin(s: seq<real>, lo: real, hi: real)
    requires |s| > 0
    requires forall x :: x in s ==> lo <= x <= hi
    ensures lo <= Mean(s) <= hi
  {
    SumBounds(s, lo, hi);
    var n := |s| as real;
    assert Sum(s) / n >= lo by {
      assert Sum(s) >= n * lo;
    }
    assert Sum(s) / n <= hi by {
      assert Sum(s) <= n * hi;
    }
  }

  /** The mean lies between the smallest and the largest element. */
  lemma MeanBetweenMinAndMax(s: seq<real>)
    requires |s| > 0
    ensures Min(s) <= Mean(s) <= Max(s)
  {
    MeanWithin(s, Min(s), Max(s));
  }

  /** The mean of a list whose elements are all `c` is `c`. */
  lemma MeanOfConstant(s: seq<real>, c: real)
    requires |s| > 0
    requires forall x :: x in s ==> x == c
    ensures Mean(s) == c
  {
    MeanWithin(s, c, c);
  }

  /** The mean does not depend on the order of the list. */
  lemma MeanPermutation(a: seq<real>, b: seq<real>)
    requires |a| > 0
    requires multiset(a) == multiset(b)
    ensures |b| > 0 && Mean(a) == Mean(b)
  {
    assert |a| == |multiset(a)| == |multiset(b)| == |b|;
    SumPermutation(a, b);
  }

  /** The largest element depends only on which values occur. */
  lemma MaxSameElements(a: seq<real>, b: seq<real>)
    requires |a| > 0 && |b| > 0
    requires forall x :: x in a <==> x in b
    ensures Max(a) == Max(b)
  {
  }

  function Abs(x: real): real
  {
    if x < 0.0 then -x else x
  }

  /** Maps with the same keys and the same value at every key are equal. */
  lemma MapsEqual<K, V>(m1: map<K, V>, m2: map<K, V>)
    requires m1.Keys == m2.Keys
    requires forall k :: k in m1 ==> m1[k] == m2[k]
    ensures m1 == m2
  {
  }
}

=== FILE: jtl_parser.dfy ===
/** The result parser of parse-jtl.py (`parse_csv`): one pass over the rows of
    a JMeter results log, grouping them by the label in column 2 and keeping,
    per label, the number of rows, the summed elapsed time of column 1, the
    number of rows whose column 7 is the literal "true", and the raw elapsed
    texts; then deriving the success percentage and the average time with
    Python 2 integer (floor) division. */
module JtlParser {
  import opened Wrappers
  import opened Builtins
  import Folds

  /** Column positions in a results row. */
  const ElapsedColumn: nat := 1
  const LabelColumn: nat := 2
  const SuccessColumn: nat := 7

  /** One row of the log, as the parser reads it. */
  datatype Sample = Sample(call: string, elapsedText: string, elapsed: int, flag: string)

  /** Why a row could not be read: an `IndexError` on a short row (naming the
      first column the parser reached for), or a `ValueError` from `int()`. */
  datatype RowError =
    | MissingColumn(row: nat, column: nat)
    | NotAnInteger(row: nat, text: string)

  /** Reads row number `row`. The parser touches column 2 first, then converts
      column 1, then reads column 7, so a short row fails at the first of
      those it lacks and a two-column row never reaches the conversion. */
  function DecodeRow(fields: seq<string>, row: nat): (r: Result<Sample, RowError>)
    ensures r.Success? <==> |fields| > SuccessColumn && ParseInt(fields[ElapsedColumn]).Some?
    ensures r.Success? ==> r.value.call == fields[LabelColumn] && r.value.flag == fields[SuccessColumn]
    ensures r.Success? ==> Some(r.value.elapsed) == ParseInt(r.value.elapsedText) && r.value.elapsedText == fields[ElapsedColumn]
    ensures |fields| <= LabelColumn ==> r == Failure(MissingColumn(row, LabelColumn))
    ensures |fields| > LabelColumn && ParseInt(fields[ElapsedColumn]).None? ==>
              r == Failure(NotAnInteger(row, fields[ElapsedColumn]))
    ensures LabelColumn < |fields| <= SuccessColumn && ParseInt(fields[ElapsedColumn]).Some? ==>
              r == Failure(MissingColumn(row, SuccessColumn))
  {
    if |fields| <= LabelColumn then Failure(MissingColumn(row, LabelColumn))
    else match ParseInt(fields[ElapsedColumn])
      case None => Failure(NotAnInteger(row, fields[ElapsedColumn]))
      case Some(v) =>
        if |fields| <= SuccessColumn then Failure(MissingColumn(row, SuccessColumn))
        else Success(Sample(fields[LabelColumn], fields[ElapsedColumn], v, fields[SuccessColumn]))
  }

  /** Reads rows `first`, `first + 1`, ... in order; the first unreadable row
      aborts the whole parse. */
  function DecodeRows(rows: seq<seq<string>>, first: nat): (r: Result<seq<Sample>, RowError>)
    ensures r.Success? ==> |r.value| == |rows|
    ensures r.Success? ==> forall i :: 0 <= i < |rows| ==> DecodeRow(rows[i], first + i) == Success(r.value[i])
    ensures r.Failure? ==> exists i :: 0 <= i < |rows| && DecodeRow(rows[i], first + i) == Failure(r.error)
                                      && forall j :: 0 <= j < i ==> DecodeRow(rows[j], first + j).Success?
  {
    Traverse(rows, DecodeRow, first)
  }

  /** The rows after the header, which `next(reader, None)` skips. */
  function Body(rows: seq<seq<string>>): seq<seq<string>>
  {
    if |rows| == 0 then [] else rows[1..]
  }

  /** Per-label accumulator of the one-pass loop. */
  datatype Tally = Tally(count: int, elapsed: int, success: int, data: seq<string>)

  /** Every label seen in the samples. */
  function Labels(s: seq<Sample>): set<string>
  {
    set i | 0 <= i < |s| :: s[i].call
  }

  /** The per-row contributions to a label's tally. */
  function RowOf(l: string): Sample -> int
  {
    (x: Sample) => if x.call == l then 1 else 0
  }

  function ElapsedIn(l: string): Sample -> int
  {
    (x: Sample) => if x.call == l then x.elapsed else 0
  }

  function SuccessIn(l: string): Sample -> int
  {
    (x: Sample) => if x.call == l && x.flag == "true" then 1 else 0
  }

  /** Reference definitions of a label's tally, stated over the whole list. */
  function CountOf(s: seq<Sample>, l: string): int
  {
    Folds.SumOf(s, RowOf(l))
  }

  function ElapsedOf(s: seq<Sample>, l: string): int
  {
    Folds.SumOf(s, ElapsedIn(l))
  }

  function SuccessOf(s: seq<Sample>, l: string): int
  {
    Folds.SumOf(s, SuccessIn(l))
  }

  /** The elapsed texts of the label's rows, in row order. */
  function DataOf(s: seq<Sample>, l: string): seq<string>
  {
    if |s| == 0 then []
    else DataOf(s[..|s| - 1], l) + (if s[|s| - 1].call == l then [s[|s| - 1].elapsedText] else [])
  }

  function TallyOf(s: seq<Sample>, l: string): Tally
  {
    Tally(CountOf(s, l), ElapsedOf(s, l), SuccessOf(s, l), DataOf(s, l))
  }

  /** One row's contribution to its label's tally: one more call, its
      elapsed time, one more success when the flag is the text "true", and
      its elapsed text appended to the data. */
  function AddSample(t: Tally, x: Sample): Tally
  {
    Tally(t.count + 1, t.elapsed + x.elapsed,
          t.success + (if x.flag == "true" then 1 else 0), t.data + [x.elapsedText])
  }

  /** Appending one sample bumps its own label's tally and no other. */
  lemma TallyStep(s: seq<Sample>, x: Sample, l: string)
    ensures TallyOf(s + [x], l) == if x.call == l then AddSample(TallyOf(s, l), x) else TallyOf(s, l)
  {
    assert (s + [x])[..|s|] == s;
  }

  /** Appending one sample adds its label to the labels seen. */
  lemma LabelsSnoc(s: seq<Sample>, x: Sample)
    ensures Labels(s + [x]) == Labels(s) + {x.call}
  {
    var s' := s + [x];
    assert s'[|s|] == x;
    forall y | y in Labels(s') ensures y in Labels(s) + {x.call} {
      var k :| 0 <= k < |s'| && s'[k].call == y;
      if k < |s| {
        assert s[k].call == y;
      }
    }
    forall y | y in Labels(s) ensures y in Labels(s') {
      var k :| 0 <= k < |s| && s[k].call == y;
      assert s'[k].call == y;
    }
  }

  /** A label that never occurs has the empty tally. */
  lemma {:induction false} TallyOfAbsent(s: seq<Sample>, l: string)
    requires l !in Labels(s)
    ensures TallyOf(s, l) == Tally(0, 0, 0, [])
    decreases |s|
  {
    if |s| > 0 {
      var s' := s[..|s| - 1];
      assert Labels(s') <= Labels(s) by {
        forall y | y in Labels(s') ensures y in Labels(s) {
          var i :| 0 <= i < |s'| && s'[i].call == y;
          assert s[i].call == y;
        }
      }
      TallyOfAbsent(s', l);
      assert s[|s| - 1].call != l;
      assert s == s' + [s[|s| - 1]];
      TallyStep(s', s[|s| - 1], l);
    }
  }

  /** The one-pass grouping loop of `parse_csv`. */
  method Aggregate(samples: seq<Sample>) returns (m: map<string, Tally>)
    ensures m.Keys == Labels(samples)
    ensures forall l :: l in m ==> m[l] == TallyOf(samples, l)
  {
    m := map[];
    var i := 0;
    while i < |samples|
      invariant 0 <= i <= |samples|
      invariant m.Keys == Labels(samples[..i])
      invariant forall l :: l in m ==> m[l] == TallyOf(samples[..i], l)
    {
      var x := samples[i];
      var t := if x.call in m then m[x.call] else Tally(0, 0, 0, []);
      AggregateStep(m, samples[..i], x);
      m := m[x.call := AddSample(t, x)];
      assert samples[..i + 1] == samples[..i] + [x];
      i := i + 1;
    }
    assert samples[..i] == samples;
  }

  lemma AggregateStep(m: map<string, Tally>, s: seq<Sample>, x: Sample)
    requires m.Keys == Labels(s)
    requires forall l :: l in m ==> m[l] == TallyOf(s, l)
    ensures var t := if x.call in m then m[x.call] else Tally(0, 0, 0, []);
            var m' := m[x.call := AddSample(t, x)];
            && m'.Keys == Labels(s + [x])
            && forall l :: l in m' ==> m'[l] == TallyOf(s + [x], l)
  {
    var t := if x.call in m then m[x.call] else Tally(0, 0, 0, []);
    var m' := m[x.call := AddSample(t, x)];
    if x.call !in m {
      TallyOfAbsent(s, x.call);
    }
    assert t == TallyOf(s, x.call);
    LabelsSnoc(s, x);
    forall l | l in m' ensures m'[l] == TallyOf(s + [x], l) {
      TallyStep(s, x, l);
    }
  }

  /** The figures reported for one label. */
  datatype Stat = Stat(count: int, elapsed: int, success: int, data: seq<string>,
                       successPct: int, average: int, numCalls: int)

  /** The second loop of `parse_csv`: success percentage and average time by
      floor division, and the number of collected data points. */
  function Summarize(t: Tally): (st: Stat)
    requires t.count > 0
    ensures st.count == t.count && st.elapsed == t.elapsed && st.success == t.success && st.data == t.data
    ensures st.successPct * t.count <= t.success * 100 < st.successPct * t.count + t.count
    ensures st.average * t.count <= t.elapsed < st.average * t.count + t.count
    ensures st.numCalls == |t.data|
  {
    Stat(t.count, t.elapsed, t.success, t.data,
         FloorDiv(t.success * 100, t.count), FloorDiv(t.elapsed, t.count), |t.data|)
  }

  /** The reported figures of a label that occurs in the rows. */
  function StatOf(s: seq<Sample>, l: string): Stat
    requires l in Labels(s)
  {
    CountPositiveIffSeen(s, l);
    Summarize(TallyOf(s, l))
  }

  /** A label occurs exactly when its count is positive; counts are never negative. */
  lemma {:induction false} CountPositiveIffSeen(s: seq<Sample>, l: string)
    ensures CountOf(s, l) >= 0
    ensures l in Labels(s) <==> CountOf(s, l) > 0
    decreases |s|
  {
    if |s| > 0 {
      var s' := s[..|s| - 1];
      var x := s[|s| - 1];
      CountPositiveIffSeen(s', l);
      assert s == s' + [x];
      TallyStep(s', x, l);
      LabelsSnoc(s', x);
    } else {
      assert Labels(s) == {};
    }
  }

  /** `parse_csv`: skip the header, read every row, group, then summarize.
      Any unreadable row is the parse's error; otherwise there is one entry
      per label, holding that label's reference tally, summarized. */
  method ParseCsv(rows: seq<seq<string>>) returns (r: Result<map<string, Stat>, RowError>)
    ensures r.Failure? <==> DecodeRows(Body(rows), 1).Failure?
    ensures r.Failure? ==> r.error == DecodeRows(Body(rows), 1).error
    ensures r.Success? ==>
              var samples := DecodeRows(Body(rows), 1).value;
              && r.value.Keys == Labels(samples)
              && forall l :: l in r.value ==> r.value[l] == StatOf(samples, l)
  {
    match DecodeRows(Body(rows), 1)
    case Failure(e) =>
      r := Failure(e);
    case Success(samples) =>
      var stats := Report(samples);
      r := Success(stats);
  }

  /** Grouping and summarizing the decoded rows: one entry per label. */
  method Report(samples: seq<Sample>) returns (stats: map<string, Stat>)
    ensures stats.Keys == Labels(samples)
    ensures forall l :: l in stats ==> stats[l] == StatOf(samples, l)
  {
    var tallies := Aggregate(samples);
    forall l | l in tallies
      ensures tallies[l].count > 0
    {
      CountPositiveIffSeen(samples, l);
    }
    stats := map l | l in tallies :: Summarize(tallies[l]);
  }

  /** One data point per row: `num_calls` equals `count`. */
  lemma {:induction false} DataMatchesCount(s: seq<Sample>, l: string)
    ensures |DataOf(s, l)| == CountOf(s, l)
    decreases |s|
  {
    if |s| > 0 {
      var s' := s[..|s| - 1];
      DataMatchesCount(s', l);
      assert s == s' + [s[|s| - 1]];
      TallyStep(s', s[|s| - 1], l);
    }
  }

  /** The figures of every label obey the bounds the report relies on:
      successes never exceed calls, the success percentage is in [0, 100],
      `num_calls == count`, and non-negative elapsed times give a
      non-negative average. */
  lemma StatBounds(s: seq<Sample>, l: string)
    requires l in Labels(s)
    ensures var st := StatOf(s, l);
            && 0 <= st.success <= st.count
            && 0 <= st.successPct <= 100
            && st.numCalls == st.count
            && ((forall i :: 0 <= i < |s| ==> s[i].elapsed >= 0) ==> st.elapsed >= 0 && st.average >= 0)
  {
    CountPositiveIffSeen(s, l);
    DataMatchesCount(s, l);
    Folds.SumOfNonNegative(s, SuccessIn(l));
    Folds.SumOfMonotone(s, SuccessIn(l), RowOf(l));
    PercentWithinRange(TallyOf(s, l));
    if forall i :: 0 <= i < |s| ==> s[i].elapsed >= 0 {
      assert forall x :: x in s ==> ElapsedIn(l)(x) >= 0;
      Folds.SumOfNonNegative(s, ElapsedIn(l));
      AverageNonNegative(TallyOf(s, l));
    }
  }

  lemma PercentWithinRange(t: Tally)
    requires 0 <= t.success <= t.count && t.count > 0
    ensures 0 <= Summarize(t).successPct <= 100
  {
    assert 0 * t.count <= t.success * 100 <= 100 * t.count;
    FloorDivBounds(t.success * 100, t.count, 0, 100);
  }

  lemma AverageNonNegative(t: Tally)
    requires t.elapsed >= 0 && t.count > 0
    ensures Summarize(t).average >= 0
  {
    assert 0 * t.count <= t.elapsed <= t.elapsed * t.count;
    FloorDivBounds(t.elapsed, t.count, 0, t.elapsed);
  }

  /** How often the elapsed text `t` occurs in a label's data list. */
  function TextIn(l: string, t: string): Sample -> int
  {
    (x: Sample) => if x.call == l && x.elapsedText == t then 1 else 0
  }

  lemma {:induction false} DataMultiplicity(s: seq<Sample>, l: string, t: string)
    ensures multiset(DataOf(s, l))[t] == Folds.SumOf(s, TextIn(l, t))
    decreases |s|
  {
    if |s| > 0 {
      DataMultiplicity(s[..|s| - 1], l, t);
    }
  }

  /** The grouping does not depend on the order of the rows: the same labels,
      and for each the same count, elapsed sum, success count, percentages and
      average; the data list holds the same texts, in row order. */
  lemma ParseOrderIndependent(a: seq<Sample>, b: seq<Sample>)
    requires multiset(a) == multiset(b)
    ensures Labels(a) == Labels(b)
    ensures forall l :: l in Labels(a) ==>
              l in Labels(b) &&
              var sa, sb := StatOf(a, l), StatOf(b, l);
              && sa.count == sb.count && sa.elapsed == sb.elapsed && sa.success == sb.success
              && sa.successPct == sb.successPct && sa.average == sb.average && sa.numCalls == sb.numCalls
              && multiset(sa.data) == multiset(sb.data)
  {
    LabelsPermutation(a, b);
    forall l | l in Labels(a)
      ensures var sa, sb := StatOf(a, l), StatOf(b, l);
              && sa.count == sb.count && sa.elapsed == sb.elapsed && sa.success == sb.success
              && sa.successPct == sb.successPct && sa.average == sb.average && sa.numCalls == sb.numCalls
              && multiset(sa.data) == multiset(sb.data)
    {
      TallyPermutation(a, b, l);
      var ta, tb := TallyOf(a, l), TallyOf(b, l);
      assert |ta.data| == |multiset(ta.data)| == |multiset(tb.data)| == |tb.data|;
    }
  }

  lemma LabelsPermutation(a: seq<Sample>, b: seq<Sample>)
    requires multiset(a) == multiset(b)
    ensures Labels(a) == Labels(b)
  {
    forall y | y in Labels(a) ensures y in Labels(b) {
      var i :| 0 <= i < |a| && a[i].call == y;
      assert a[i] in multiset(b);
    }
    forall y | y in Labels(b) ensures y in Labels(a) {
      var i :| 0 <= i < |b| && b[i].call == y;
      assert b[i] in multiset(a);
    }
  }

  lemma TallyPermutation(a: seq<Sample>, b: seq<Sample>, l: string)
    requires multiset(a) == multiset(b)
    ensures TallyOf(a, l).count == TallyOf(b, l).count
    ensures TallyOf(a, l).elapsed == TallyOf(b, l).elapsed
    ensures TallyOf(a, l).success == TallyOf(b, l).success
    ensures multiset(TallyOf(a, l).data) == multiset(TallyOf(b, l).data)
  {
    Folds.SumOfPermutation(a, b, RowOf(l));
    Folds.SumOfPermutation(a, b, ElapsedIn(l));
    Folds.SumOfPermutation(a, b, SuccessIn(l));
    forall t ensures multiset(DataOf(a, l))[t] == multiset(DataOf(b, l))[t] {
      DataMultiplicity(a, l, t);
      DataMultiplicity(b, l, t);
      Folds.SumOfPermutation(a, b, TextIn(l, t));
    }
  }
}

=== FILE: param_estimator.dfy ===
/** The estimator of param_estimator.py: from the gathered per-call lists it
    derives either a tolerance table (required success and allowed deviance
    of the average time) or a baseline table (expected average time and
    success percentage). */
module ParamEstimator {
  import opened Wrappers
  import Folds
  import opened Thresholds
  import opened Corpus

  /** The `--type` option. */
  datatype Mode = Deviances | Baseline

  datatype Estimations =
    | Tolerances(tolerances: map<string, Tolerance>)
    | Baselines(baselines: map<string, BaselineEntry>)

  /** `_compute_avg_elap_time` and `_compute_avg_success_rate`: the mean of
      the list gathered for `call`. */
  function ComputeAverage(table: map<string, seq<real>>, call: string): (m: real)
    requires call in table && |table[call]| > 0
    ensures Folds.Min(table[call]) <= m <= Folds.Max(table[call])
  {
    Folds.MeanBetweenMinAndMax(table[call]);
    Folds.Mean(table[call])
  }

  /** `abs(avg - t) / t`: how far one run's time is from the mean, relative
      to that run's time. */
  function RelativeDeviation(mean: real, t: real): real
    requires t != 0.0
  {
    Folds.Abs(mean - t) / t
  }

  predicate NonZero(xs: seq<real>)
  {
    forall i :: 0 <= i < |xs| ==> xs[i] != 0.0
  }

  /** The list `max_dev` takes the maximum of: one deviation per run, each
      non-negative when the times are positive, as average times are. */
  function RelativeDeviations(times: seq<real>, mean: real): (ds: seq<real>)
    requires NonZero(times)
    ensures |ds| == |times|
    ensures forall i :: 0 <= i < |times| ==> ds[i] == RelativeDeviation(mean, times[i])
    ensures (forall i :: 0 <= i < |times| ==> times[i] > 0.0) ==> forall i :: 0 <= i < |ds| ==> ds[i] >= 0.0
  {
    seq(|times|, i requires 0 <= i < |times| => RelativeDeviation(mean, times[i]))
  }

  /** `max_dev`: the largest relative deviation of any run from the mean. */
  function MaxDeviation(times: seq<real>): (m: real)
    requires |times| > 0 && NonZero(times)
    ensures exists i :: 0 <= i < |times| && m == RelativeDeviation(Folds.Mean(times), times[i])
    ensures forall i :: 0 <= i < |times| ==> RelativeDeviation(Folds.Mean(times), times[i]) <= m
  {
    var ds := RelativeDeviations(times, Folds.Mean(times));
    var m := Folds.Max(ds);
    assert forall i :: 0 <= i < |times| ==> ds[i] in ds;
    m
  }

  /** Both tables name the same calls, and every call has a success rate and
      an average time from each run that contains it. */
  predicate WellGathered(g: Gathered)
  {
    && g.successRates.Keys == g.avgElapsedTimes.Keys
    && (forall c :: c in g.successRates ==>
          && |g.successRates[c]| > 0
          && |g.successRates[c]| == |g.avgElapsedTimes[c]|)
  }

  lemma GatheredWell(runs: seq<Run>)
    requires NoZeroCount(runs)
    ensures WellGathered(GatherRequiredData(runs))
  {
    var g := GatherRequiredData(runs);
    forall c | c in g.successRates
      ensures |g.successRates[c]| > 0 && |g.successRates[c]| == |g.avgElapsedTimes[c]|
    {
      GatherMeaning(runs, c);
      GatheredShape(runs, c);
    }
  }

  /** The baseline for a call whose runs took `times` on average and
      succeeded at `rates`: the mean time plus the margin, and the mean rate,
      in percent, minus the margin. */
  function BaselineOf(times: seq<real>, rates: seq<real>): BaselineEntry
    requires |times| > 0 && |rates| > 0
  {
    BaselineEntry(Folds.Mean(times) + Margin, 100.0 * Folds.Mean(rates) - Margin)
  }

  /** The tolerance for a call whose runs took `times` on average and
      succeeded at `rates`: the mean rate, in percent, minus the margin, and
      the largest relative deviation of a time from the mean time, in
      percent, plus the margin. */
  function ToleranceOf(times: seq<real>, rates: seq<real>): Tolerance
    requires |times| > 0 && NonZero(times) && |rates| > 0
  {
    Tolerance(100.0 * Folds.Mean(rates) - Margin, 100.0 * MaxDeviation(times) + Margin)
  }

  lemma GatheredKeys(runs: seq<Run>)
    requires NoZeroCount(runs)
    ensures GatherRequiredData(runs).successRates.Keys == Calls(runs)
  {
    forall c ensures c in GatherRequiredData(runs).successRates <==> c in Calls(runs) {
      GatherMeaning(runs, c);
    }
  }

  /** One entry of `_estimate_baseline`. */
  function BaselineFor(g: Gathered, call: string): BaselineEntry
    requires WellGathered(g) && call in g.successRates
  {
    BaselineEntry(
      ComputeAverage(g.avgElapsedTimes, call) + Margin,
      100.0 * ComputeAverage(g.successRates, call) - Margin)
  }

  /** One entry of `_estimate_deviances`. */
  function ToleranceFor(g: Gathered, call: string): Tolerance
    requires WellGathered(g) && call in g.successRates
    requires NonZero(g.avgElapsedTimes[call])
  {
    Tolerance(
      100.0 * ComputeAverage(g.successRates, call) - Margin,
      100.0 * MaxDeviation(g.avgElapsedTimes[call]) + Margin)
  }

  /** `_estimate_baseline`: one entry per call of the corpus. */
  function EstimateBaseline(runs: seq<Run>): (r: map<string, BaselineEntry>)
    requires NoZeroCount(runs)
    ensures r.Keys == Calls(runs)
  {
    var g := GatherRequiredData(runs);
    GatheredKeys(runs);
    GatheredWell(runs);
    map c | c in g.successRates :: BaselineFor(g, c)
  }

  /** No entry has a zero average time (`abs(...) / elap_time` would raise). */
  predicate NoZeroAverage(runs: seq<Run>)
  {
    forall i, c :: 0 <= i < |runs| && c in runs[i] ==> runs[i][c].average != 0.0
  }

  lemma GatheredTimesNonZero(runs: seq<Run>, c: string)
    requires NoZeroCount(runs)
    requires c in GatherRequiredData(runs).avgElapsedTimes
    ensures NonZero(GatherRequiredData(runs).avgElapsedTimes[c]) <==>
            forall i :: 0 <= i < |runs| && c in runs[i] ==> runs[i][c].average != 0.0
  {
    GatherMeaning(runs, c);
    var col := Column(runs, c, AverageTime);
    if NonZero(col) {
      forall i | 0 <= i < |runs| && c in runs[i]
        ensures runs[i][c].average != 0.0
      {
        assert runs[i][c].average in col;
      }
    } else {
      var j :| 0 <= j < |col| && col[j] == 0.0;
      assert col[j] in col;
    }
  }

  lemma GatheredTimesAllNonZero(runs: seq<Run>)
    requires NoZeroCount(runs) && NoZeroAverage(runs)
    ensures forall c :: c in GatherRequiredData(runs).avgElapsedTimes ==> NonZero(GatherRequiredData(runs).avgElapsedTimes[c])
  {
    var g := GatherRequiredData(runs);
    forall c | c in g.avgElapsedTimes
      ensures NonZero(g.avgElapsedTimes[c])
    {
      GatheredTimesNonZero(runs, c);
    }
  }

  /** `_estimate_deviances`: one entry per call of the corpus. */
  function EstimateDeviances(runs: seq<Run>): (r: map<string, Tolerance>)
    requires NoZeroCount(runs) && NoZeroAverage(runs)
    ensures r.Keys == Calls(runs)
  {
    var g := GatherRequiredData(runs);
    GatheredKeys(runs);
    GatheredWell(runs);
    GatheredTimesAllNonZero(runs);
    map c | c in g.successRates :: ToleranceFor(g, c)
  }

  /** `_estimate`: dispatch on the mode. The only failure is a division by
      zero: a zero count while gathering, or, for tolerances, a zero average
      time while computing the deviation. */
  function Estimate(runs: seq<Run>, mode: Mode): (r: Result<Estimations, EstimateError>)
    ensures r.Failure? <==> !NoZeroCount(runs) || (mode == Deviances && !NoZeroAverage(runs))
    ensures r.Success? && mode == Baseline ==> r.value == Baselines(EstimateBaseline(runs))
    ensures r.Success? && mode == Deviances ==> r.value == Tolerances(EstimateDeviances(runs))
  {
    if !NoZeroCount(runs) then Failure(ZeroDivision)
    else
      match mode
      case Baseline => Success(Baselines(EstimateBaseline(runs)))
      case Deviances =>
        var g := GatherRequiredData(runs);
        if exists c :: c in g.avgElapsedTimes && 0.0 in g.avgElapsedTimes[c] then
          assert !NoZeroAverage(runs) by {
            var c :| c in g.avgElapsedTimes && 0.0 in g.avgElapsedTimes[c];
            GatheredTimesNonZero(runs, c);
            var j :| 0 <= j < |g.avgElapsedTimes[c]| && g.avgElapsedTimes[c][j] == 0.0;
          }
          Failure(ZeroDivision)
        else
          assert NoZeroAverage(runs) by {
            forall i, c | 0 <= i < |runs| && c in runs[i]
              ensures runs[i][c].average != 0.0
            {
              assert c in Calls(runs);
              GatherMeaning(runs, c);
              GatheredTimesNonZero(runs, c);
            }
          }
          Success(Tolerances(EstimateDeviances(runs)))
  }

  /** Each baseline entry is computed from the call's columns: the time
      and success rate of every run that contains the call. */
  lemma BaselineMeaning(runs: seq<Run>, c: string)
    requires NoZeroCount(runs) && c in Calls(runs)
    ensures |Column(runs, c, AverageTime)| > 0 && |Column(runs, c, SuccessRate)| > 0
    ensures EstimateBaseline(runs)[c] == BaselineOf(Column(runs, c, AverageTime), Column(runs, c, SuccessRate))
  {
    BaselineEntryFromGather(runs, c);
    GatherMeaning(runs, c);
    BaselineForIsOf(GatherRequiredData(runs), c);
  }

  lemma BaselineEntryFromGather(runs: seq<Run>, c: string)
    requires NoZeroCount(runs) && c in Calls(runs)
    ensures var g := GatherRequiredData(runs);
            && WellGathered(g) && c in g.successRates
            && EstimateBaseline(runs)[c] == BaselineFor(g, c)
  {
    GatheredKeys(runs);
    GatheredWell(runs);
  }

  lemma BaselineForIsOf(g: Gathered, c: string)
    requires WellGathered(g) && c in g.successRates
    ensures BaselineFor(g, c) == BaselineOf(g.avgElapsedTimes[c], g.successRates[c])
  {
  }

  /** Every entry reports between zero and `count` successes out of a
      positive count. */
  predicate SuccessWithinCount(runs: seq<Run>)
  {
    forall i, c :: 0 <= i < |runs| && c in runs[i] ==> 0 <= runs[i][c].success <= runs[i][c].count && runs[i][c].count > 0
  }

  lemma MeanRateWithinUnit(runs: seq<Run>, c: string)
    requires SuccessWithinCount(runs) && c in Calls(runs)
    ensures NoZeroCount(runs)
    ensures |Column(runs, c, SuccessRate)| > 0
    ensures 0.0 <= Folds.Mean(Column(runs, c, SuccessRate)) <= 1.0
  {
    ColumnNonEmpty(runs, c, SuccessRate);
    RatesWithinUnit(runs, c);
    Folds.MeanWithin(Column(runs, c, SuccessRate), 0.0, 1.0);
  }

  /** A baseline asks for at most 95 % and at least -5 % success, and its
      time lies within the margin above the fastest and slowest run. */
  lemma BaselineBounds(runs: seq<Run>, c: string)
    requires SuccessWithinCount(runs) && c in Calls(runs)
    ensures NoZeroCount(runs)
    ensures var e := EstimateBaseline(runs)[c];
            var times := Column(runs, c, AverageTime);
            && |times| > 0
            && -5.0 <= e.successPct <= 95.0
            && Folds.Min(times) + Margin <= e.average <= Folds.Max(times) + Margin
  {
    MeanRateWithinUnit(runs, c);
    BaselineMeaning(runs, c);
    Folds.MeanBetweenMinAndMax(Column(runs, c, AverageTime));
  }

  /** Each tolerance entry is computed from the call's columns: the time
      and success rate of every run that contains the call. */
  lemma ToleranceMeaning(runs: seq<Run>, c: string)
    requires NoZeroCount(runs) && NoZeroAverage(runs) && c in Calls(runs)
    ensures var times := Column(runs, c, AverageTime);
            && |times| > 0 && NonZero(times) && |Column(runs, c, SuccessRate)| > 0
            && EstimateDeviances(runs)[c] == ToleranceOf(times, Column(runs, c, SuccessRate))
  {
    ToleranceEntryFromGather(runs, c);
    GatherMeaning(runs, c);
    var g := GatherRequiredData(runs);
    ToleranceForIsOf(g, c);
  }

  lemma ToleranceForIsOf(g: Gathered, c: string)
    requires WellGathered(g) && c in g.successRates && NonZero(g.avgElapsedTimes[c])
    ensures ToleranceFor(g, c) == ToleranceOf(g.avgElapsedTimes[c], g.successRates[c])
  {
  }

  lemma ToleranceEntryFromGather(runs: seq<Run>, c: string)
    requires NoZeroCount(runs) && NoZeroAverage(runs) && c in Calls(runs)
    ensures var g := GatherRequiredData(runs);
            && WellGathered(g) && c in g.successRates && NonZero(g.avgElapsedTimes[c])
            && EstimateDeviances(runs)[c] == ToleranceFor(g, c)
  {
    GatheredKeys(runs);
    GatheredWell(runs);
    GatheredTimesAllNonZero(runs);
  }

  /** Every entry has a positive average time. */
  predicate PositiveAverages(runs: seq<Run>)
  {
    forall i, c :: 0 <= i < |runs| && c in runs[i] ==> runs[i][c].average > 0.0
  }

  /** With positive times the allowed deviance is never below the margin,
      and the required success stays within [-5, 95]. */
  lemma ToleranceBounds(runs: seq<Run>, c: string)
    requires SuccessWithinCount(runs) && PositiveAverages(runs) && c in Calls(runs)
    ensures NoZeroCount(runs) && NoZeroAverage(runs)
    ensures var e := EstimateDeviances(runs)[c];
            && e.allowedDeviance >= Margin
            && -5.0 <= e.requiredSuccess <= 95.0
  {
    MeanRateWithinUnit(runs, c);
    ToleranceMeaning(runs, c);
    TimesPositive(runs, c);
    ToleranceOfBounds(Column(runs, c, AverageTime), Column(runs, c, SuccessRate));
  }

  lemma TimesPositive(runs: seq<Run>, c: string)
    requires PositiveAverages(runs)
    ensures forall x :: x in Column(runs, c, AverageTime) ==> x > 0.0
  {
    forall x | x in Column(runs, c, AverageTime) ensures x > 0.0 {
      var j :| 0 <= j < |runs| && c in runs[j] && x == Value(runs[j][c], AverageTime);
    }
  }

  lemma ToleranceOfBounds(times: seq<real>, rates: seq<real>)
    requires |times| > 0 && NonZero(times) && |rates| > 0
    requires forall x :: x in times ==> x > 0.0
    requires 0.0 <= Folds.Mean(rates) <= 1.0
    ensures ToleranceOf(times, rates).allowedDeviance >= Margin
    ensures -5.0 <= ToleranceOf(times, rates).requiredSuccess <= 95.0
  {
    MaxDeviationNonNegative(times);
  }

  lemma MaxDeviationNonNegative(times: seq<real>)
    requires |times| > 0 && NonZero(times)
    requires forall x :: x in times ==> x > 0.0
    ensures MaxDeviation(times) >= 0.0
  {
    var i :| 0 <= i < |times| && MaxDeviation(times) == RelativeDeviation(Folds.Mean(times), times[i]);
    assert times[i] in times;
    DeviationNonNegative(Folds.Mean(times), times[i]);
  }

  lemma DeviationNonNegative(mean: real, t: real)
    requires t > 0.0
    ensures RelativeDeviation(mean, t) >= 0.0
  {
  }

  /** When every run took the same time, the allowed deviance is exactly
      the margin. */
  lemma SteadyTimesNeedOnlyMargin(runs: seq<Run>, c: string, t: real)
    requires NoZeroCount(runs) && NoZeroAverage(runs) && c in Calls(runs)
    requires forall i :: 0 <= i < |runs| && c in runs[i] ==> runs[i][c].average == t
    ensures EstimateDeviances(runs)[c].allowedDeviance == Margin
  {
    ToleranceMeaning(runs, c);
    var times := Column(runs, c, AverageTime);
    forall x | x in times ensures x == t {
      var i :| 0 <= i < |runs| && c in runs[i] && x == Value(runs[i][c], AverageTime);
    }
    SteadyMaxDeviation(times, t);
  }

  lemma SteadyMaxDeviation(times: seq<real>, t: real)
    requires |times| > 0 && NonZero(times)
    requires forall x :: x in times ==> x == t
    ensures MaxDeviation(times) == 0.0
  {
    Folds.MeanOfConstant(times, t);
    var i :| 0 <= i < |times| && MaxDeviation(times) == RelativeDeviation(Folds.Mean(times), times[i]);
    assert times[i] in times;
    NoDeviationFromItself(times[i]);
  }

  lemma NoDeviationFromItself(t: real)
    requires t != 0.0
    ensures RelativeDeviation(t, t) == 0.0
  {
  }

  /** The relative deviation of the largest outlier does not depend on the
      order of the runs. */
  lemma MaxDeviationPermutation(a: seq<real>, b: seq<real>)
    requires |a| > 0 && NonZero(a)
    requires multiset(a) == multiset(b)
    ensures |b| > 0 && NonZero(b)
    ensures MaxDeviation(a) == MaxDeviation(b)
  {
    Folds.MeanPermutation(a, b);
    forall i | 0 <= i < |b| ensures b[i] != 0.0 {
      assert b[i] in multiset(a);
      var j :| 0 <= j < |a| && a[j] == b[i];
    }
    var m := Folds.Mean(a);
    var da, db := RelativeDeviations(a, m), RelativeDeviations(b, m);
    forall x ensures x in da <==> x in db {
      if x in da {
        var i :| 0 <= i < |a| && da[i] == x;
        assert a[i] in multiset(b);
        var j :| 0 <= j < |b| && b[j] == a[i];
        assert db[j] == x;
      }
      if x in db {
        var j :| 0 <= j < |b| && db[j] == x;
        assert b[j] in multiset(a);
        var i :| 0 <= i < |a| && a[i] == b[j];
        assert da[i] == x;
      }
    }
    Folds.MaxSameElements(da, db);
  }

  lemma SameAverages(a: seq<Run>, b: seq<Run>)
    requires multiset(a) == multiset(b)
    ensures NoZeroAverage(a) <==> NoZeroAverage(b)
  {
    SameRuns(a, b);
  }

  lemma BaselineOfPermutation(t1: seq<real>, r1: seq<real>, t2: seq<real>, r2: seq<real>)
    requires |t1| > 0 && |r1| > 0
    requires multiset(t1) == multiset(t2) && multiset(r1) == multiset(r2)
    ensures |t2| > 0 && |r2| > 0
    ensures BaselineOf(t1, r1) == BaselineOf(t2, r2)
  {
    Folds.MeanPermutation(t1, t2);
    Folds.MeanPermutation(r1, r2);
  }

  lemma ToleranceOfPermutation(t1: seq<real>, r1: seq<real>, t2: seq<real>, r2: seq<real>)
    requires |t1| > 0 && NonZero(t1) && |r1| > 0
    requires multiset(t1) == multiset(t2) && multiset(r1) == multiset(r2)
    ensures |t2| > 0 && NonZero(t2) && |r2| > 0
    ensures ToleranceOf(t1, r1) == ToleranceOf(t2, r2)
  {
    MaxDeviationPermutation(t1, t2);
    Folds.MeanPermutation(r1, r2);
  }

  lemma BaselineEntryOrderIndependent(a: seq<Run>, b: seq<Run>, c: string)
    requires multiset(a) == multiset(b)
    requires NoZeroCount(a) && NoZeroCount(b) && c in Calls(a) && c in Calls(b)
    ensures EstimateBaseline(a)[c] == EstimateBaseline(b)[c]
  {
    BaselineMeaning(a, c);
    BaselineMeaning(b, c);
    ColumnPermutation(a, b, c, AverageTime);
    ColumnPermutation(a, b, c, SuccessRate);
    BaselineOfPermutation(Column(a, c, AverageTime), Column(a, c, SuccessRate),
                          Column(b, c, AverageTime), Column(b, c, SuccessRate));
  }

  lemma ToleranceEntryOrderIndependent(a: seq<Run>, b: seq<Run>, c: string)
    requires multiset(a) == multiset(b)
    requires NoZeroCount(a) && NoZeroCount(b) && NoZeroAverage(a) && NoZeroAverage(b)
    requires c in Calls(a) && c in Calls(b)
    ensures EstimateDeviances(a)[c] == EstimateDeviances(b)[c]
  {
    ToleranceMeaning(a, c);
    ToleranceMeaning(b, c);
    ColumnPermutation(a, b, c, AverageTime);
    ColumnPermutation(a, b, c, SuccessRate);
    ToleranceOfPermutation(Column(a, c, AverageTime), Column(a, c, SuccessRate),
                           Column(b, c, AverageTime), Column(b, c, SuccessRate));
  }

  lemma BaselinesOrderIndependent(a: seq<Run>, b: seq<Run>)
    requires multiset(a) == multiset(b)
    requires NoZeroCount(a) && NoZeroCount(b) && Calls(a) == Calls(b)
    ensures EstimateBaseline(a) == EstimateBaseline(b)
  {
    var ea, eb := EstimateBaseline(a), EstimateBaseline(b);
    forall c | c in ea ensures ea[c] == eb[c] {
      BaselineEntryOrderIndependent(a, b, c);
    }
    Folds.MapsEqual(ea, eb);
  }

  lemma TolerancesOrderIndependent(a: seq<Run>, b: seq<Run>)
    requires multiset(a) == multiset(b)
    requires NoZeroCount(a) && NoZeroCount(b) && NoZeroAverage(a) && NoZeroAverage(b)
    requires Calls(a) == Calls(b)
    ensures EstimateDeviances(a) == EstimateDeviances(b)
  {
    var ea, eb := EstimateDeviances(a), EstimateDeviances(b);
    forall c | c in ea ensures ea[c] == eb[c] {
      ToleranceEntryOrderIndependent(a, b, c);
    }
    Folds.MapsEqual(ea, eb);
  }

  /** The estimate does not depend on the order in which the corpus files
      were listed or the results dictionary was enumerated. */
  lemma EstimateOrderIndependent(a: seq<Run>, b: seq<Run>, mode: Mode)
    requires multiset(a) == multiset(b)
    ensures Estimate(a, mode) == Estimate(b, mode)
  {
    SameRuns(a, b);
    SameAverages(a, b);
    if mode == Baseline {
      BaselineModeOrderIndependent(a, b);
    } else {
      DeviancesModeOrderIndependent(a, b);
    }
  }

  lemma BaselineModeOrderIndependent(a: seq<Run>, b: seq<Run>)
    requires multiset(a) == multiset(b)
    requires Calls(a) == Calls(b) && (NoZeroCount(a) <==> NoZeroCount(b))
    ensures Estimate(a, Baseline) == Estimate(b, Baseline)
  {
    if NoZeroCount(a) {
      BaselinesOrderIndependent(a, b);
    }
  }

  lemma DeviancesModeOrderIndependent(a: seq<Run>, b: seq<Run>)
    requires multiset(a) == multiset(b)
    requires Calls(a) == Calls(b) && (NoZeroCount(a) <==> NoZeroCount(b))
    requires NoZeroAverage(a) <==> NoZeroAverage(b)
    ensures Estimate(a, Deviances) == Estimate(b, Deviances)
  {
    if NoZeroCount(a) && NoZeroAverage(a) {
      TolerancesOrderIndependent(a, b);
    }
  }
}

=== FILE: thresholds.dfy ===
/** The threshold tables that pass, as JSON files, from the estimators to the
    comparator. */
module Thresholds {

  /** A JSON number as `json.load` returns it: a Python int or a float. A
      statistics file written by the parser holds ints; one written by the
      estimators holds floats, modelled as exact reals. */
  datatype Number = Int(i: int) | Float(x: real)
  {
    function Value(): real
    {
      match this
      case Int(i) => i as real
      case Float(x) => x
    }
  }

  /** The five points both estimators add to a time or deviance and take off
      a success percentage, as slack. */
  const Margin: real := 5.0

  /** Python's `ZeroDivisionError`, the one error either estimator raises on
      a well-formed corpus. */
  datatype EstimateError = ZeroDivision

  /** One entry of the tolerance ("expected") table: the lowest acceptable
      success percentage and the largest acceptable timing deviance, in percent. */
  datatype Tolerance = Tolerance(requiredSuccess: real, allowedDeviance: real)

  /** One entry of a baseline table as the estimator writes it: the expected
      average time and the expected success percentage. */
  datatype BaselineEntry = BaselineEntry(average: real, successPct: real)
}

=== FILE: version_filters.dfy ===
/** The filter plugin ansible/plugins/filter/performance.py: helpers that
    turn a baseline branch name such as "2.1.5" into a VM snapshot name and
    the paths of the baseline and expected-value files for its major.minor
    version. */
module VersionFilters {
  import opened Wrappers

  const Dot: char := '.'

  /** Python's `str.split(sep)`: every separator starts a new field, empty
      fields included, so there is always at least one field. */
  function Split(s: string, sep: char): (parts: seq<string>)
    ensures |parts| >= 1
    ensures forall i :: 0 <= i < |parts| ==> sep !in parts[i]
  {
    if |s| == 0 then [""]
    else
      var rest := Split(s[1..], sep);
      if s[0] == sep then [""] + rest
      else [[s[0]] + rest[0]] + rest[1..]
  }

  /** `sep.join(parts)`. */
  function Join(parts: seq<string>, sep: char): string
    requires |parts| >= 1
  {
    if |parts| == 1 then parts[0] else parts[0] + [sep] + Join(parts[1..], sep)
  }

  /** Joining the fields of a split gives back the string. */
  lemma {:induction false} JoinSplit(s: string, sep: char)
    ensures Join(Split(s, sep), sep) == s
    decreases |s|
  {
    if |s| > 0 {
      JoinSplit(s[1..], sep);
      var rest := Split(s[1..], sep);
      if s[0] == sep {
        JoinAfterSeparator(rest, sep);
      } else {
        JoinExtendsFirst(s[0], rest, sep);
      }
      assert [s[0]] + s[1..] == s;
    }
  }

  lemma JoinAfterSeparator(parts: seq<string>, sep: char)
    requires |parts| >= 1
    ensures Join([""] + parts, sep) == [sep] + Join(parts, sep)
  {
    assert ([""] + parts)[1..] == parts;
  }

  lemma JoinExtendsFirst(c: char, parts: seq<string>, sep: char)
    requires |parts| >= 1
    ensures Join([[c] + parts[0]] + parts[1..], sep) == [c] + Join(parts, sep)
  {
    var longer := [[c] + parts[0]] + parts[1..];
    if |parts| > 1 {
      assert longer[1..] == parts[1..];
      assert Join(longer, sep) == ([c] + parts[0]) + [sep] + Join(parts[1..], sep);
    }
  }

  /** A separator-free prefix only lengthens the first field. */
  lemma {:induction false} SplitAfterPlain(p: string, t: string, sep: char)
    requires sep !in p
    ensures Split(p + t, sep) == [p + Split(t, sep)[0]] + Split(t, sep)[1..]
    decreases |p|
  {
    if |p| > 0 {
      SplitAfterPlain(p[1..], t, sep);
      assert (p + t)[1..] == p[1..] + t;
      assert (p + t)[0] == p[0];
      assert [p[0]] + (p[1..] + Split(t, sep)[0]) == p + Split(t, sep)[0];
    } else {
      var parts := Split(t, sep);
      assert p + t == t;
      assert p + parts[0] == parts[0];
      assert [parts[0]] + parts[1..] == parts;
    }
  }

  /** Splitting a join of separator-free fields gives back the fields. */
  lemma {:induction false} SplitJoin(parts: seq<string>, sep: char)
    requires |parts| >= 1
    requires forall i :: 0 <= i < |parts| ==> sep !in parts[i]
    ensures Split(Join(parts, sep), sep) == parts
    decreases |parts|
  {
    if |parts| == 1 {
      SplitAfterPlain(parts[0], "", sep);
      assert parts[0] + "" == parts[0];
    } else {
      var tail := Join(parts[1..], sep);
      SplitJoin(parts[1..], sep);
      assert Split([sep] + tail, sep) == [""] + parts[1..];
      assert Join(parts, sep) == parts[0] + ([sep] + tail);
      SplitAfterPlain(parts[0], [sep] + tail, sep);
      assert parts[0] + "" == parts[0];
      assert [parts[0]] + parts[1..] == parts;
    }
  }

  /** `major_minor_num`: the first two dot-separated fields joined by a dot.
      A branch name without a dot makes `version[1]` raise `IndexError`,
      modelled as `None`. */
  function MajorMinorNum(branch: string): (r: Option<string>)
    ensures r.Some? <==> Dot in branch
  {
    var version := Split(branch, Dot);
    if |version| < 2 then
      assert Dot !in branch by {
        JoinSplit(branch, Dot);
      }
      None
    else
      assert Dot in branch by {
        JoinSplit(branch, Dot);
        assert Join(version, Dot) == version[0] + [Dot] + Join(version[1..], Dot);
        assert Join(version, Dot)[|version[0]|] == Dot;
      }
      Some(version[0] + [Dot] + version[1])
  }

  /** The first field starts the joined string. */
  lemma JoinStartsWithFirst(parts: seq<string>, sep: char)
    requires |parts| >= 1
    ensures parts[0] <= Join(parts, sep)
  {
    if |parts| > 1 {
      assert Join(parts, sep) == parts[0] + ([sep] + Join(parts[1..], sep));
    }
  }

  /** For a branch "major.minor[.rest]" with dot-free `major` and `minor`,
      the result is "major.minor", a prefix of the branch. */
  lemma MajorMinorOfVersion(major: string, minor: string, rest: seq<string>)
    requires Dot !in major && Dot !in minor
    requires forall i :: 0 <= i < |rest| ==> Dot !in rest[i]
    ensures var branch := Join([major, minor] + rest, Dot);
            && MajorMinorNum(branch) == Some(major + [Dot] + minor)
            && major + [Dot] + minor <= branch
  {
    var parts := [major, minor] + rest;
    DotFreeFields(major, minor, rest);
    SplitJoin(parts, Dot);
    VersionPrefix(parts);
  }

  lemma DotFreeFields(major: string, minor: string, rest: seq<string>)
    requires Dot !in major && Dot !in minor
    requires forall i :: 0 <= i < |rest| ==> Dot !in rest[i]
    ensures forall i :: 0 <= i < |[major, minor] + rest| ==> Dot !in ([major, minor] + rest)[i]
  {
    var parts := [major, minor] + rest;
    forall i | 0 <= i < |parts| ensures Dot !in parts[i] {
      if i >= 2 {
        assert parts[i] == rest[i - 2];
      }
    }
  }

  lemma VersionPrefix(parts: seq<string>)
    requires |parts| >= 2
    ensures parts[0] + [Dot] + parts[1] <= Join(parts, Dot)
  {
    var p0, p1, tail := parts[0], parts[1], Join(parts[1..], Dot);
    JoinStartsWithFirst(parts[1..], Dot);
    assert Join(parts, Dot) == (p0 + [Dot]) + tail;
    PrefixExtends(p0 + [Dot], p1, tail);
  }

  lemma PrefixExtends<T>(a: seq<T>, b: seq<T>, c: seq<T>)
    requires b <= c
    ensures a + b <= a + c
  {
    assert (a + c)[..|a + b|] == a + b;
  }

  /** `snap_name`: the snapshot to restore before a run. Only the MySQL
      domain reads the branch. */
  function SnapName(perfVmDomain: string, baselineBranch: string): (r: Option<string>)
    ensures perfVmDomain == "CP" ==> r == Some("readyfortestsnap")
    ensures perfVmDomain != "CP" && perfVmDomain != "candlepin-perf-mysql" ==> r == Some("")
    ensures perfVmDomain == "candlepin-perf-mysql" ==>
              (r.Some? <==> Dot in baselineBranch)
              && (r.Some? ==> r.value == "testsnap_" + MajorMinorNum(baselineBranch).value)
  {
    if perfVmDomain == "CP" then Some("readyfortestsnap")
    else if perfVmDomain == "candlepin-perf-mysql" then
      match MajorMinorNum(baselineBranch)
      case None => None
      case Some(v) => Some("testsnap_" + v)
    else Some("")
  }

  /** `baseline_file`: where the baseline of the branch's major.minor
      version is kept. */
  function BaselineFile(baselineBranch: string): (r: Option<string>)
    ensures r.Some? <==> Dot in baselineBranch
    ensures r.Some? ==> r.value == "baseline/" + MajorMinorNum(baselineBranch).value + "-baseline.json"
  {
    match MajorMinorNum(baselineBranch)
    case None => None
    case Some(v) => Some("baseline/" + v + "-baseline.json")
  }

  /** `expected_file`: where the tolerances of the branch's major.minor
      version are kept. */
  function ExpectedFile(baselineBranch: string): (r: Option<string>)
    ensures r.Some? <==> Dot in baselineBranch
    ensures r.Some? ==> r.value == "expected/" + MajorMinorNum(baselineBranch).value + "-expected.json"
  {
    match MajorMinorNum(baselineBranch)
    case None => None
    case Some(v) => Some("expected/" + v + "-expected.json")
  }

  /** Branches that agree on their first two version fields share a
      snapshot, a baseline file and an expected file. */
  lemma SameMajorMinorSameFiles(a: string, b: string)
    requires MajorMinorNum(a) == MajorMinorNum(b)
    ensures BaselineFile(a) == BaselineFile(b)
    ensures ExpectedFile(a) == ExpectedFile(b)
    ensures SnapName("candlepin-perf-mysql", a) == SnapName("candlepin-perf-mysql", b)
  {
  }

  /** The four filters the plugin exports. */
  datatype Filter = SnapNameFilter | BaselineFileFilter | ExpectedFileFilter | MajorMinorNumFilter

  function Name(f: Filter): string
  {
    match f
    case SnapNameFilter => "snap_name"
    case BaselineFileFilter => "baseline_file"
    case ExpectedFileFilter => "expected_file"
    case MajorMinorNumFilter => "major_minor_num"
  }

  /** `FilterModule.filters`: every filter is registered under its own
      name and nothing else is registered. */
  function Filters(): (table: map<string, Filter>)
    ensures forall f :: Name(f) in table && table[Name(f)] == f
    ensures forall n :: n in table ==> Name(table[n]) == n
  {
    map[
      "snap_name" := SnapNameFilter,
      "baseline_file" := BaselineFileFilter,
      "expected_file" := ExpectedFileFilter,
      "major_minor_num" := MajorMinorNumFilter]
  }
}

=== FILE: wrappers.dfy ===
/** Failure-carrying values: the model's stand-in for Python's exceptions
    (IndexError, ValueError, KeyError, ZeroDivisionError). */
module Wrappers {

  /** A value, or nothing (a failed lookup or parse). */
  datatype Option<+T> = None | Some(value: T)

  /** A value, or the error that aborted the computation. */
  datatype Result<+T, +E> = Success(value: T) | Failure(error: E)

  /** Applies `f` to the elements of `xs` in order, numbering them from
      `first`, and stops at the first failure. */
  function Traverse<A, B, E>(xs: seq<A>, f: (A, nat) -> Result<B, E>, first: nat): (r: Result<seq<B>, E>)
    ensures r.Success? ==> |r.value| == |xs|
    ensures r.Success? ==> forall i :: 0 <= i < |xs| ==> f(xs[i], first + i) == Success(r.value[i])
    ensures r.Failure? ==> exists i :: 0 <= i < |xs| && f(xs[i], first + i) == Failure(r.error)
                                      && forall j :: 0 <= j < i ==> f(xs[j], first + j).Success?
    decreases |xs|
  {
    if |xs| == 0 then Success([])
    else
      var head := f(xs[0], first);
      if head.Failure? then Failure(head.error)
      else
        var tail := Traverse(xs[1..], f, first + 1);
        if tail.Failure? then Failure(tail.error)
        else Success([head.value] + tail.value)
  }
}
